=== FILE: README.md ===
# Sparse matrix, modelled in Dafny

A model of the `SparseMatrix` engine of `sparse_matrix/code/src/sparse_matrix.py`.

A matrix is two declared dimensions plus a singly linked list of `(row, col, data)` nodes. The operations are:

- `get_element`: first-match lookup;
- `set_element`: the only update path; it inserts, overwrites or deletes, and never stores a zero;
- `add`, `subtract` and `multiply`: each builds a fresh result by folding operand entries through `set_element`/`get_element`;
- `load_matrix`: a line-by-line loader for files of the form

```
rows=<int>
cols=<int>
(<row>,<col>,<value>)
...
```

How the model is built:

- The linked list is a `seq<Entry>` in list order, head first and tail last.
- The `size` counter is kept as its own field, so "size counts the list" is an invariant that has to be proved rather than a definition.
- Every operation is a pure function.
- A Python exception becomes a `Result` failure that carries a `MatrixError`.

The modules follow the structure of the program:

| module | file | what it holds |
|---|---|---|
| `Results` | results.dfy | `Option` and `Result` |
| `Entries` | entries.dfy | `Node` as `Entry`, the list traversal `Scan`, lookup `Get`, lookup laws, and the reference functions `Rewrite`, `LastValue` and `KeySum` |
| `Matrix` | matrix.dfy | the `SparseMatrix` value, its invariant `Valid`, `_create_node`, `set_element`, the error kinds and the format-error text |
| `Arithmetic` | arithmetic.dfy | `add`, `subtract`, `multiply`, their dimension-error texts and their element-wise meaning |
| `Text` | text.dfy | `str.strip()`, `str.split()`, `int()` on a decimal token, and decimal rendering |
| `Loader` | loader.dfy | body-line classification, the body loop, header parsing and `load_matrix` |
| `Scenarios` | scenarios.dfy | concrete files loaded, added and multiplied |

Behaviour worth knowing, all proved:

- **Lookup sees the first duplicate.** The loader appends without a key check, so a file that names a cell twice produces two entries.
  - `get_element` returns the first of them.
  - `add` and `subtract` copy the left operand through `set_element`, so the last duplicate wins there.
  - The law `get(A+B) = get(A) + get(B)` therefore holds whenever A and B have unique keys, and can fail otherwise (`Scenarios.DuplicateKept`).
  - In general, `get(A+B) = LastValue(A) + KeySum(B)`, where every duplicate of B is added in.
  - `Scenarios.DuplicateKept` shows both effects on a concrete file.
- **`is_empty()` trusts the counter.** `_create_node` starts a fresh list when `size` is 0, whatever the list holds (`Scenarios.StaleCountRestarts`). With a nonzero `size` and an empty list it raises instead, which the model does not follow (see `Matrix.CreateNode` under "Left out"). Every matrix built by the code keeps `size` equal to the list length, so both only matter for a hand-built state.
- **Keys stay unique on the `set_element` path.** `set_element` keeps "no zero, one entry per cell, size = length" (`Valid`), so results of `add`, `subtract` and `multiply` are always `Valid`.
- **Multiply is the textbook product.** `multiply` is the sum over all entry pairs with `a.col == b.row`. When keys are unique and the left operand's columns lie within its declared width, this equals the textbook `sum_k A[i][k] * B[k][j]`.
- **No bounds checks.** Lookups, updates and loaded entries are never checked against the declared dimensions, and the dimensions themselves may be negative.
- **The header name is not checked.** It is whatever text comes before the first `=`; only the integer after it is read (line 39).

## Model

| member | source | states |
|---|---|---|
| Entries.Scan | sparse_matrix/code/src/sparse_matrix.py:55-61 | the traversal stops at the first node in list order whose key is (r, c); it finds nothing exactly when no node has that key |
| Entries.Get | sparse_matrix/code/src/sparse_matrix.py:55-61 | `get_element` returns the data of the first node at (r, c) in list order, and 0 when no node has that key; there is no bounds precondition |
| Entries.GetUnique | sparse_matrix/code/src/sparse_matrix.py:55-61 | with one node per cell, lookup returns the data of that node, wherever it sits in the list |
| Entries.StoredIffGet | sparse_matrix/code/src/sparse_matrix.py:55-82 | under the `set_element` invariant, an entry is in the list exactly when its value is nonzero and lookup at its cell returns that value, so lookup determines the list as a set |
| Entries.GetStored | sparse_matrix/code/src/sparse_matrix.py:55-61 | a nonzero lookup result is the value of a node actually stored at that cell |
| Entries.GetAppend | sparse_matrix/code/src/sparse_matrix.py:26-33 | appending a node at the tail never changes the lookup of a cell already present; an absent cell then reads the new value if the key matches, else 0 |
| Entries.GetRemoveOther | sparse_matrix/code/src/sparse_matrix.py:69-75 | unlinking a node leaves the lookup of every other cell unchanged |
| Entries.GetRemoveUnique | sparse_matrix/code/src/sparse_matrix.py:69-75 | unlinking the only node at a cell leaves that cell absent from the list |
| Entries.GetReplaceOther | sparse_matrix/code/src/sparse_matrix.py:76-78 | overwriting a node's data in place leaves the lookup of every other cell unchanged |
| Matrix.New | sparse_matrix/code/src/sparse_matrix.py:11-16 | a new matrix has the given dimensions, satisfies the invariant and reads 0 at every cell |
| Matrix.CreateNode | sparse_matrix/code/src/sparse_matrix.py:23-33 | whenever `_create_node` returns, it has grown `size` by one and left the new node at the tail; when `size` is 0 (`is_empty()`) the new node becomes the whole list, otherwise every earlier node stays in place, so when `size` counts the list it is a plain append and `size` still counts it |
| Matrix.Kept | sparse_matrix/code/src/sparse_matrix.py:23-32 | the list `_create_node` links onto is empty when `size` is 0 (`is_empty()`), and is the whole list whenever `size` counts it |
| Matrix.CreateNodeGet | sparse_matrix/code/src/sparse_matrix.py:23-33 | after `_create_node`, a cell present in the list it kept reads as before; an absent cell reads the new value if the key matches, else 0 |
| Matrix.Unlink | sparse_matrix/code/src/sparse_matrix.py:68-75 | unlinking keeps the other nodes in their relative order, drops `size` by one, keeps no-zero and unique keys, and with unique keys leaves the cell absent |
| Matrix.Overwrite | sparse_matrix/code/src/sparse_matrix.py:76-78 | the in-place write changes only that node's data; length, order, `size` and unique keys are kept |
| Matrix.SetElement | sparse_matrix/code/src/sparse_matrix.py:63-82 | on the first node at (r, c), duplicates or not, v = 0 unlinks exactly that node and the others keep their order, while a nonzero v overwrites that node's data in place. After the call a nonzero v reads back, and with v = 0 and unique keys the cell is gone. No zero is ever stored, unique keys and the size count are preserved, `size` changes by -1, 0 or +1 by case, an absent nonzero key is appended at the tail of the list `_create_node` keeps, and an absent zero is a no-op |
| Matrix.SetElementFrame | sparse_matrix/code/src/sparse_matrix.py:63-82 | while `size` counts the list, `set_element` on one cell never changes the lookup of any other cell, duplicates or not |
| Matrix.SetElementIsRewrite | sparse_matrix/code/src/sparse_matrix.py:63-82 | with unique keys and `size` counting the list, `set_element` equals an independent list rewrite that replaces or drops the (r, c) node and keeps every other node in order, followed by a tail append when the cell was absent and v is nonzero |
| Matrix.SetAll | sparse_matrix/code/src/sparse_matrix.py:63-82 | any sequence of `set_element` calls keeps the dimensions and the invariant (no zero, one node per cell, `size` = length); from an empty matrix every reachable state is valid |
| Arithmetic.CopyEntries | sparse_matrix/code/src/sparse_matrix.py:89-92 | the copy loop keeps the result's dimensions and its invariant |
| Arithmetic.CopyEntriesGet | sparse_matrix/code/src/sparse_matrix.py:89-92 | after the copy loop a cell holds the value of the last copied node at that cell, or its earlier value if no copied node has that key |
| Arithmetic.FoldEntries | sparse_matrix/code/src/sparse_matrix.py:93-96 | the read-combine-write loop keeps the result's dimensions and its invariant |
| Arithmetic.FoldEntriesGet | sparse_matrix/code/src/sparse_matrix.py:93-96 | the second loop adds (or subtracts) the sum of every right-operand node at a cell to the value it finds there |
| Arithmetic.Combined | sparse_matrix/code/src/sparse_matrix.py:88-96 | the shared body of `add` and `subtract` gives a result with the left operand's dimensions that holds no zero, no repeated cell, and a `size` that counts its list |
| Arithmetic.CombinedGet | sparse_matrix/code/src/sparse_matrix.py:88-96 | the two loops together give the last left value plus (or minus) the sum of all right values at each cell |
| Arithmetic.Add | sparse_matrix/code/src/sparse_matrix.py:84-97 | `add` fails exactly when either dimension differs, with "Matrices must have the same dimensions for addition"; otherwise the result has the operands' dimensions and holds no zero and no repeated cell |
| Arithmetic.Subtract | sparse_matrix/code/src/sparse_matrix.py:99-112 | `subtract` fails exactly when either dimension differs, with "Matrices must have the same dimensions for subtraction"; otherwise the result has the operands' dimensions and holds no zero and no repeated cell |
| Arithmetic.AddGet | sparse_matrix/code/src/sparse_matrix.py:84-97 | for any operands, duplicates included, each cell of A + B is the last value of A there plus the sum of all values of B there |
| Arithmetic.SubtractGet | sparse_matrix/code/src/sparse_matrix.py:99-112 | for any operands, each cell of A - B is the last value of A there minus the sum of all values of B there |
| Arithmetic.AddGetUnique | sparse_matrix/code/src/sparse_matrix.py:84-97 | with unique keys, get(A + B, r, c) = get(A, r, c) + get(B, r, c) at every cell |
| Arithmetic.SubtractGetUnique | sparse_matrix/code/src/sparse_matrix.py:99-112 | with unique keys, get(A - B, r, c) = get(A, r, c) - get(B, r, c) at every cell |
| Arithmetic.AddSubtractRoundTrip | sparse_matrix/code/src/sparse_matrix.py:84-112 | (A + B) - B succeeds and reads back A's last value at every cell, which is get(A) whenever A has unique keys |
| Arithmetic.MultiplyRow | sparse_matrix/code/src/sparse_matrix.py:121-125 | the inner loop keeps the result's dimensions and its invariant |
| Arithmetic.MultiplyAll | sparse_matrix/code/src/sparse_matrix.py:119-126 | the nested loops keep the result's dimensions and its invariant |
| Arithmetic.MultiplyRowGet | sparse_matrix/code/src/sparse_matrix.py:121-125 | the inner loop adds `a.data * b.data` to cell (a.row, b.col) for every right node with `a.col == b.row` |
| Arithmetic.MultiplyAllGet | sparse_matrix/code/src/sparse_matrix.py:119-126 | the nested loops add the sum over all matching pairs to every cell |
| Arithmetic.Multiply | sparse_matrix/code/src/sparse_matrix.py:114-127 | `multiply` fails exactly when A's column count differs from B's row count, with "Invalid dimensions for multiplication"; otherwise the result is (A.rows x B.cols) with no zero and no repeated cell |
| Arithmetic.MultiplyGet | sparse_matrix/code/src/sparse_matrix.py:114-127 | each cell (i, j) of A x B is the sum of `a.data * b.data` over all node pairs with a.row = i, a.col = b.row, b.col = j, duplicates included |
| Arithmetic.MultiplyIsProduct | sparse_matrix/code/src/sparse_matrix.py:114-127 | with unique keys and A's columns inside its declared width, A x B at (i, j) is the textbook sum over k of get(A, i, k) * get(B, k, j) |
| Arithmetic.PairSumIsKeyDot | sparse_matrix/code/src/sparse_matrix.py:119-126 | the all-pairs scan equals a column-by-column sum of per-cell totals when every left column lies in range |
| Arithmetic.KeyDotIsDot | sparse_matrix/code/src/sparse_matrix.py:119-126 | with unique keys those per-cell totals are plain lookups |
| Arithmetic.LastValueUnique | sparse_matrix/code/src/sparse_matrix.py:89-92 | with unique keys, the last value at a cell is the first, so the copy loop reproduces lookup |
| Arithmetic.KeySumUnique | sparse_matrix/code/src/sparse_matrix.py:93-96 | with unique keys, the sum of all values at a cell is the lookup |
| Text.Strip | sparse_matrix/code/src/sparse_matrix.py:44 | the stripped line starts and ends with a non-space, and is empty exactly when the line is all whitespace |
| Text.StripPadded | sparse_matrix/code/src/sparse_matrix.py:44 | strip removes exactly the surrounding whitespace and nothing inside the text |
| Text.Split | sparse_matrix/code/src/sparse_matrix.py:47 | `split(',')` yields at least one piece, no piece contains the separator, and joining the pieces gives the input back |
| Text.SplitJoin | sparse_matrix/code/src/sparse_matrix.py:47 | splitting a join of separator-free pieces gives the pieces back |
| Text.ParseDecimal | sparse_matrix/code/src/sparse_matrix.py:47 | an accepted token is an optional sign followed by at least one decimal digit (a lone sign is rejected), and the sign decides the sign of the result |
| Text.ShowNat | sparse_matrix/code/src/sparse_matrix.py:132 | rendering a natural number yields digits without a leading zero that spell the number |
| Text.ParsePadded | sparse_matrix/code/src/sparse_matrix.py:47 | an optional '+' or '-', any number of leading zeros, then the digits of n read as n, negated after '-'; with the shape clauses of `Text.ParseDecimal` this fixes the value of every accepted token, so "+5" reads as 5 and "007" as 7 |
| Text.ParseSigned | sparse_matrix/code/src/sparse_matrix.py:47 | an optional sign before any nonempty digit string reads as the value those digits spell, negated after '-' |
| Text.ParseInt | sparse_matrix/code/src/sparse_matrix.py:39-47 | `int()` of an empty or all-whitespace text fails, as for the field of "(1,,3)" |
| Text.ParseIntPadded | sparse_matrix/code/src/sparse_matrix.py:39-47 | `int()` of a signed, zero-padded token with any whitespace around it reads as the token's value |
| Text.ParseShow | sparse_matrix/code/src/sparse_matrix.py:132 | `int()` of a printed integer gives the integer back |
| Text.ParseIntShow | sparse_matrix/code/src/sparse_matrix.py:39-40 | `int()` of a printed integer with any surrounding whitespace gives the integer back |
| Loader.ClassifyLine | sparse_matrix/code/src/sparse_matrix.py:44-51 | a body line is skipped exactly when it is all whitespace; it reads as a triple only when its stripped text is parenthesised; any other non-blank line is malformed |
| Loader.ClassifyTripleSound | sparse_matrix/code/src/sparse_matrix.py:44-47 | a line read as the triple (r, c, v) is, stripped, "(x,y,z)" with three comma-free fields that `int()` reads as r, c and v |
| Loader.ClassifyTripleComplete | sparse_matrix/code/src/sparse_matrix.py:44-47 | a line that is, stripped, "(x,y,z)" with comma-free fields that `int()` reads as r, c and v is read as exactly the triple (r, c, v) |
| Loader.ClassifyTripleIff | sparse_matrix/code/src/sparse_matrix.py:44-47 | both directions at once: a line yields the triple (r, c, v) if and only if it has that shape with those values |
| Loader.ClassifyMalformedIff | sparse_matrix/code/src/sparse_matrix.py:44-51 | a line stops the load if and only if it is not all whitespace and is not "(x,y,z)" with three comma-free fields that `int()` reads, so "(garbage)", "(1,2)" and "(a,b,c)" are all malformed |
| Loader.ClassifyTripleText | sparse_matrix/code/src/sparse_matrix.py:44-49 | a triple written with any whitespace around the line and the same whitespace gap after each comma reads as exactly that triple |
| Loader.PrintedLineLoads | sparse_matrix/code/src/sparse_matrix.py:132 | every line `print_matrix` writes, "(row, col, data)", is a body line that loads as the same entry |
| Loader.Triples | sparse_matrix/code/src/sparse_matrix.py:43-49 | the entries a body contributes hold no zero and are at most one per line |
| Loader.TriplesAppend | sparse_matrix/code/src/sparse_matrix.py:43-49 | the body is read line by line in file order: the entries of two consecutive chunks are the first chunk's followed by the second's |
| Loader.TriplesSound | sparse_matrix/code/src/sparse_matrix.py:43-49 | every loaded entry comes from a triple line of the body with that nonzero value |
| Loader.TriplesComplete | sparse_matrix/code/src/sparse_matrix.py:43-49 | every triple line with a nonzero value is loaded |
| Loader.LoadBody | sparse_matrix/code/src/sparse_matrix.py:41-51 | the body loop fails, with the format error, exactly when some line is malformed; otherwise it grows `size` by the number of nonzero triples and, starting from a list that `size` counts (as lines 41-42 ensure), appends exactly those triples in file order, duplicates kept |
| Loader.ParseHeader | sparse_matrix/code/src/sparse_matrix.py:39-40 | a header line without any '=' never reads as a number |
| Loader.ParseHeaderSound | sparse_matrix/code/src/sparse_matrix.py:39-40 | a header that reads as n is a name without '=', then '=', then a field up to the next '=' or the end that `int()` reads as n |
| Loader.ParseHeaderComplete | sparse_matrix/code/src/sparse_matrix.py:39-40 | a line of that shape reads as exactly what `int()` makes of its field |
| Loader.ParseHeaderIff | sparse_matrix/code/src/sparse_matrix.py:39-40 | both directions at once: a header reads as n if and only if it has that shape with a field that reads as n |
| Loader.ParseHeaderShow | sparse_matrix/code/src/sparse_matrix.py:39-40 | a header "name=n" followed by any whitespace reads as n, whatever the name |
| Loader.Load | sparse_matrix/code/src/sparse_matrix.py:35-53 | loading succeeds exactly when there are two headers that read as integers and no malformed body line; any failure is the one format error, whose text is "Invalid format in input file"; on success the dimensions are the headers, the entries are the nonzero triples in file order and `size` counts them |
| Scenarios.LoadA | sparse_matrix/code/src/sparse_matrix.py:35-53 | the file "rows=2, cols=2, (0,0,1), (0,1,2), (1,0,3), (1,1,4)" loads as that 2 x 2 matrix, in file order |
| Scenarios.LoadB | sparse_matrix/code/src/sparse_matrix.py:35-53 | the file "rows=2, cols=2, (0,0,5), (1,1,6)" loads as that 2 x 2 matrix |
| Scenarios.LoadIdentity | sparse_matrix/code/src/sparse_matrix.py:35-53 | the file "rows=2, cols=2, (0,0,1), (1,1,1)" loads as the 2 x 2 identity |
| Scenarios.AddExample | sparse_matrix/code/src/sparse_matrix.py:84-97 | A + B holds exactly the entries (0,0,6), (0,1,2), (1,0,3), (1,1,10) |
| Scenarios.MultiplyIdentityExample | sparse_matrix/code/src/sparse_matrix.py:114-127 | A times the identity equals A at every cell |
| Scenarios.GarbageLine | sparse_matrix/code/src/sparse_matrix.py:50-53 | a body line "garbage" fails the load with the message "Invalid format in input file" |
| Scenarios.StaleCountRestarts | sparse_matrix/code/src/sparse_matrix.py:23-33 | with `size` 0 but a node stored at (0,0), setting (1,1) to 5 leaves the list [(1,1,5)] and (0,0) reads 0 |
| Scenarios.DuplicateKept | sparse_matrix/code/src/sparse_matrix.py:43-61 | a cell written twice in a file is stored twice in file order; lookup sees the first value, while adding a zero matrix keeps the last |

## Left out

- Opening and reading the file, and the `try`/`except` that re-wraps every exception (lines 36-38 and 52-53). The loader takes the lines already read. Each way the code can raise that the model follows becomes the `InvalidFormat` failure: an index error on a missing header or missing `=`, a failed `int()`, a triple with the wrong number of fields, or a malformed line. The digit limit of `int()`, described below, is not followed.
- The state of a matrix whose load raised part-way. The exception reaches the caller and the object is not used again.
- `int()` beyond ASCII decimal tokens. Digit-group underscores (`1_000`) and non-ASCII digits are rejected by the model. Python accepts them.
- The digit limit of `int()`. Python 3.11 and later, and the matching security releases of 3.7 to 3.10, by default refuse a decimal token of more than 4300 digits with a `ValueError`, which `load_matrix` reports as the format error. The limit depends on the interpreter version and on `sys.set_int_max_str_digits`. The model reads tokens of any length, so such a file loads here.
- Whitespace beyond ASCII. `str.strip()` here removes only the ASCII whitespace Python recognises: space, 9-13 and 28-31. Python also strips non-ASCII spaces such as U+00A0.
- `print_matrix` (lines 129-133) writes to stdout. Only the text of its line is modelled (`Loader.FormatEntry`), together with the proof that the loader reads it back.
- `main` (lines 135-165): command-line dispatch and printing.
- The `head`, `tail` and `next` pointers (lines 12-13, 26-33, 69-74). The sequence's order and its last element stand for them. `__len__` (lines 20-21) is the `size` field, and `is_empty` (lines 23-24) is the test `size == 0` inside `Matrix.Kept`.
- The optional file argument of the constructor (lines 17-18). `Load` models loading a file.
- The default `None` dimensions of the constructor (line 11). The model's dimensions are integers, so `SparseMatrix()` with no arguments is not modelled. Two such matrices compare equal at line 85, so Python adds them.
- Complexity. Both the quadratic scans and the cost of the all-pairs multiply are left out.
- Matrix.CreateNode: with a nonzero `size` and an empty list, line 31 reads `self.tail.next` with `tail` None and raises `AttributeError`. The model appends instead, giving a one-node list with `size` grown by one. Such a state is never built by the code.
- Matrix.SetElement: on that same state, a nonzero value for any cell reaches `_create_node` and raises in Python. The model's contract promises the append.
- Text.ParseInt: the whitespace `int()` tolerates around its argument differs from the model's `Strip` in two ways. `int()` first turns every non-ASCII Unicode space (U+00A0, U+2003, ...) into a space and strips it, while the model knows only ASCII whitespace, so the body line "(1,\u00a02,3)" loads as (1, 2, 3) in Python and is malformed here. Of the ASCII characters, `int()` strips only space and 9-13, while the model reuses `str.strip()`'s set, which also holds 28-31, so a field such as "\x1c5" is read as 5 here and rejected by Python.
- Text.ParseDecimal: its contract states only the shape of an accepted token and the sign of the result. The exact value of every accepted token is fixed by `Text.ParsePadded`, not by the contract: sign, leading zeros, then the canonical digits.
- Loader.Triples: its contract states only no-zero and a length bound. Order, soundness and completeness are proved separately by `Loader.TriplesAppend`, `Loader.TriplesSound` and `Loader.TriplesComplete`.
- Matrix.SetElementFrame: holds only while `size` counts the list. With a stale count of 0, `set_element` on a new cell drops the rest of the list (`Scenarios.StaleCountRestarts`). Every matrix the code builds keeps the count right. `Matrix.SetElementIsRewrite` and the fold lemmas `Arithmetic.CopyEntriesGet`, `Arithmetic.FoldEntriesGet`, `Arithmetic.MultiplyRowGet` and `Arithmetic.MultiplyAllGet` need the same condition, through `Valid`.
- Loader.LoadBody: the exact list it builds is stated only when it starts from a list that `size` counts. `load_matrix` always starts from the empty list with `size` 0.
- Matrix.SetAll: states that the invariant and the dimensions are preserved, but not the lookups after the whole run. Each single call is described by `Matrix.SetElement` and `Matrix.SetElementFrame`.
- Arithmetic.AddGetUnique: the law `get(A+B) = get(A) + get(B)` is stated only for operands with unique keys, because the code does not satisfy it otherwise (see `Scenarios.DuplicateKept`). `Arithmetic.AddGet` gives the general form. The same holds for `Arithmetic.SubtractGetUnique` and `Arithmetic.AddSubtractRoundTrip`.
- Arithmetic.MultiplyIsProduct: the textbook form needs the left operand's columns to lie inside its declared width. Nodes outside it still contribute in the code, and `Arithmetic.MultiplyGet` covers that case.

=== FILE: arithmetic.dfy ===
/**
 * `add`, `subtract` and `multiply`. Each checks the operands' dimensions,
 * then builds a fresh result from an empty matrix by feeding operand entries
 * through `set_element`, reading the running value with `get_element`.
 * Operands are values here, so neither is ever changed.
 */
module Arithmetic {
  import opened Results
  import opened Entries
  import opened Matrix

  const AddMismatchMessage: string := "Matrices must have the same dimensions for addition"
  const SubtractMismatchMessage: string := "Matrices must have the same dimensions for subtraction"
  const MultiplyMismatchMessage: string := "Invalid dimensions for multiplication"

  /** Whether the second loop of `add` (Plus) or of `subtract` (Minus) is running. */
  datatype Sign = Plus | Minus

  function Combine(sign: Sign, x: int, y: int): int {
    match sign
    case Plus => x + y
    case Minus => x - y
  }

  /** The last entry of a nonempty list and the list before it. */
  lemma SplitLast(es: seq<Entry>, r: int, c: int)
    requires |es| > 0
    ensures Present(es, r, c) <==> Present(es[..|es| - 1], r, c) || HasKey(es[|es| - 1], r, c)
  {
    var init := es[..|es| - 1];
    assert forall k :: 0 <= k < |init| ==> init[k] == es[k];
    if Present(es, r, c) && !HasKey(es[|es| - 1], r, c) {
      var k :| 0 <= k < |es| && HasKey(es[k], r, c);
      assert HasKey(init[k], r, c);
    }
  }

  // ---------------------------------------------------------------------
  // add / subtract

  /** First loop of `add` and `subtract`: `set_element` of every entry of the left operand, in list order. */
  function CopyEntries(acc: SparseMatrix, es: seq<Entry>): (out: SparseMatrix)
    ensures out.numRows == acc.numRows && out.numCols == acc.numCols
    ensures UniqueKeys(acc.entries) ==> UniqueKeys(out.entries)
    ensures Valid(acc) ==> Valid(out)
    decreases |es|
  {
    if |es| == 0 then acc
    else
      var e := es[|es| - 1];
      SetElement(CopyEntries(acc, es[..|es| - 1]), e.row, e.col, e.data)
  }

  /**
   * After the copy loop a cell holds the value of the LAST entry of the
   * copied list at that cell: a later duplicate overwrites an earlier one.
   */
  lemma {:induction false} CopyEntriesGet(acc: SparseMatrix, es: seq<Entry>, r: int, c: int)
    requires Valid(acc)
    ensures Get(CopyEntries(acc, es).entries, r, c) ==
      if Present(es, r, c) then LastValue(es, r, c) else Get(acc.entries, r, c)
    decreases |es|
  {
    if |es| > 0 {
      var init := es[..|es| - 1];
      var e := es[|es| - 1];
      var prev := CopyEntries(acc, init);
      CopyEntriesGet(acc, init, r, c);
      SplitLast(es, r, c);
      if !HasKey(e, r, c) {
        SetElementFrame(prev, e.row, e.col, e.data, r, c);
      }
    }
  }

  /** Second loop of `add` (Plus) and `subtract` (Minus): fold each entry of the right operand into the result. */
  function FoldEntries(acc: SparseMatrix, es: seq<Entry>, sign: Sign): (out: SparseMatrix)
    ensures out.numRows == acc.numRows && out.numCols == acc.numCols
    ensures UniqueKeys(acc.entries) ==> UniqueKeys(out.entries)
    ensures Valid(acc) ==> Valid(out)
    decreases |es|
  {
    if |es| == 0 then acc
    else
      var e := es[|es| - 1];
      var prev := FoldEntries(acc, es[..|es| - 1], sign);
      SetElement(prev, e.row, e.col, Combine(sign, Get(prev.entries, e.row, e.col), e.data))
  }

  /** The fold adds (or subtracts) the sum of every entry at a cell, duplicates included. */
  lemma {:induction false} FoldEntriesGet(acc: SparseMatrix, es: seq<Entry>, sign: Sign, r: int, c: int)
    requires Valid(acc)
    ensures Get(FoldEntries(acc, es, sign).entries, r, c) == Combine(sign, Get(acc.entries, r, c), KeySum(es, r, c))
    decreases |es|
  {
    if |es| > 0 {
      var init := es[..|es| - 1];
      var e := es[|es| - 1];
      var prev := FoldEntries(acc, init, sign);
      FoldEntriesGet(acc, init, sign, r, c);
      if !HasKey(e, r, c) {
        SetElementFrame(prev, e.row, e.col, Combine(sign, Get(prev.entries, e.row, e.col), e.data), r, c);
      }
    }
  }

  /** The common shape of `add` and `subtract` once the dimensions agree. */
  function Combined(a: SparseMatrix, b: SparseMatrix, sign: Sign): (m: SparseMatrix)
    ensures m.numRows == a.numRows && m.numCols == a.numCols
    ensures Valid(m)
  {
    FoldEntries(CopyEntries(New(a.numRows, a.numCols), a.entries), b.entries, sign)
  }

  /** Element-wise meaning of the common shape, for any operands. */
  lemma CombinedGet(a: SparseMatrix, b: SparseMatrix, sign: Sign, r: int, c: int)
    ensures Get(Combined(a, b, sign).entries, r, c) == Combine(sign, LastValue(a.entries, r, c), KeySum(b.entries, r, c))
  {
    var copied := CopyEntries(New(a.numRows, a.numCols), a.entries);
    CopyEntriesGet(New(a.numRows, a.numCols), a.entries, r, c);
    FoldEntriesGet(copied, b.entries, sign, r, c);
    if !Present(a.entries, r, c) {
      LastValueAbsent(a.entries, r, c);
    }
  }

  /** `add`: a dimension error unless both dimensions agree, else a fresh well-formed sum. */
  function Add(a: SparseMatrix, b: SparseMatrix): (res: Result<SparseMatrix, MatrixError>)
    ensures res.Failure? <==> a.numRows != b.numRows || a.numCols != b.numCols
    ensures res.Failure? ==> res.error == DimensionMismatch(AddMismatchMessage)
    ensures res.Success? ==> res.value.numRows == a.numRows && res.value.numCols == a.numCols && Valid(res.value)
  {
    if a.numRows != b.numRows || a.numCols != b.numCols then Failure(DimensionMismatch(AddMismatchMessage))
    else Success(Combined(a, b, Plus))
  }

  /** `subtract`: same dimension check, a fresh well-formed difference. */
  function Subtract(a: SparseMatrix, b: SparseMatrix): (res: Result<SparseMatrix, MatrixError>)
    ensures res.Failure? <==> a.numRows != b.numRows || a.numCols != b.numCols
    ensures res.Failure? ==> res.error == DimensionMismatch(SubtractMismatchMessage)
    ensures res.Success? ==> res.value.numRows == a.numRows && res.value.numCols == a.numCols && Valid(res.value)
  {
    if a.numRows != b.numRows || a.numCols != b.numCols then Failure(DimensionMismatch(SubtractMismatchMessage))
    else Success(Combined(a, b, Minus))
  }

  /**
   * Element-wise sum for any operands: the last of the left operand's
   * duplicates wins, and every duplicate of the right operand is added.
   */
  lemma AddGet(a: SparseMatrix, b: SparseMatrix, r: int, c: int)
    requires a.numRows == b.numRows && a.numCols == b.numCols
    ensures Get(Add(a, b).value.entries, r, c) == LastValue(a.entries, r, c) + KeySum(b.entries, r, c)
  {
    CombinedGet(a, b, Plus, r, c);
  }

  /** Element-wise difference for any operands. */
  lemma SubtractGet(a: SparseMatrix, b: SparseMatrix, r: int, c: int)
    requires a.numRows == b.numRows && a.numCols == b.numCols
    ensures Get(Subtract(a, b).value.entries, r, c) == LastValue(a.entries, r, c) - KeySum(b.entries, r, c)
  {
    CombinedGet(a, b, Minus, r, c);
  }

  /** With unique keys on both sides, the sum is the cell-by-cell sum of lookups. */
  lemma AddGetUnique(a: SparseMatrix, b: SparseMatrix, r: int, c: int)
    requires a.numRows == b.numRows && a.numCols == b.numCols
    requires UniqueKeys(a.entries) && UniqueKeys(b.entries)
    ensures Get(Add(a, b).value.entries, r, c) == Get(a.entries, r, c) + Get(b.entries, r, c)
  {
    AddGet(a, b, r, c);
    LastValueUnique(a.entries, r, c);
    KeySumUnique(b.entries, r, c);
  }

  /** With unique keys on both sides, the difference is the cell-by-cell difference of lookups. */
  lemma SubtractGetUnique(a: SparseMatrix, b: SparseMatrix, r: int, c: int)
    requires a.numRows == b.numRows && a.numCols == b.numCols
    requires UniqueKeys(a.entries) && UniqueKeys(b.entries)
    ensures Get(Subtract(a, b).value.entries, r, c) == Get(a.entries, r, c) - Get(b.entries, r, c)
  {
    SubtractGet(a, b, r, c);
    LastValueUnique(a.entries, r, c);
    KeySumUnique(b.entries, r, c);
  }

  /**
   * Adding B and then subtracting B gives back A cell by cell, whatever
   * duplicates B holds (and A, when its keys are unique).
   */
  lemma AddSubtractRoundTrip(a: SparseMatrix, b: SparseMatrix, r: int, c: int)
    requires a.numRows == b.numRows && a.numCols == b.numCols
    ensures Subtract(Add(a, b).value, b).Success?
    ensures Get(Subtract(Add(a, b).value, b).value.entries, r, c) == LastValue(a.entries, r, c)
    ensures UniqueKeys(a.entries) ==> Get(Subtract(Add(a, b).value, b).value.entries, r, c) == Get(a.entries, r, c)
  {
    var s := Add(a, b).value;
    AddGet(a, b, r, c);
    SubtractGet(s, b, r, c);
    LastValueUnique(s.entries, r, c);
    if UniqueKeys(a.entries) {
      LastValueUnique(a.entries, r, c);
    }
  }

  // ---------------------------------------------------------------------
  // multiply

  /** Inner loop of `multiply`: one entry `x` of A against every entry of B, in list order. */
  function MultiplyRow(acc: SparseMatrix, x: Entry, bs: seq<Entry>): (out: SparseMatrix)
    ensures out.numRows == acc.numRows && out.numCols == acc.numCols
    ensures UniqueKeys(acc.entries) ==> UniqueKeys(out.entries)
    ensures Valid(acc) ==> Valid(out)
    decreases |bs|
  {
    if |bs| == 0 then acc
    else
      var y := bs[|bs| - 1];
      var prev := MultiplyRow(acc, x, bs[..|bs| - 1]);
      if x.col == y.row then
        SetElement(prev, x.row, y.col, Get(prev.entries, x.row, y.col) + x.data * y.data)
      else prev
  }

  /** Outer loop of `multiply`: every entry of A, in list order. */
  function MultiplyAll(acc: SparseMatrix, xs: seq<Entry>, bs: seq<Entry>): (out: SparseMatrix)
    ensures out.numRows == acc.numRows && out.numCols == acc.numCols
    ensures UniqueKeys(acc.entries) ==> UniqueKeys(out.entries)
    ensures Valid(acc) ==> Valid(out)
    decreases |xs|
  {
    if |xs| == 0 then acc
    else MultiplyRow(MultiplyAll(acc, xs[..|xs| - 1], bs), xs[|xs| - 1], bs)
  }

  /** Sum of x.data * y.data over the entries y of B that pair with x at cell (i, j). */
  function RowProducts(x: Entry, bs: seq<Entry>, i: int, j: int): int
  {
    if |bs| == 0 then 0
    else
      var y := bs[|bs| - 1];
      RowProducts(x, bs[..|bs| - 1], i, j) + (if x.row == i && x.col == y.row && y.col == j then x.data * y.data else 0)
  }

  /** Sum of x.data * y.data over every pair (x in A, y in B) with x.row = i, x.col = y.row, y.col = j. */
  function PairSum(xs: seq<Entry>, bs: seq<Entry>, i: int, j: int): int
  {
    if |xs| == 0 then 0
    else PairSum(xs[..|xs| - 1], bs, i, j) + RowProducts(xs[|xs| - 1], bs, i, j)
  }

  lemma {:induction false} MultiplyRowGet(acc: SparseMatrix, x: Entry, bs: seq<Entry>, i: int, j: int)
    requires Valid(acc)
    ensures Get(MultiplyRow(acc, x, bs).entries, i, j) == Get(acc.entries, i, j) + RowProducts(x, bs, i, j)
    decreases |bs|
  {
    if |bs| > 0 {
      var y := bs[|bs| - 1];
      var init := bs[..|bs| - 1];
      var prev := MultiplyRow(acc, x, init);
      MultiplyRowGet(acc, x, init, i, j);
      assert RowProducts(x, bs, i, j) ==
        RowProducts(x, init, i, j) + (if x.row == i && x.col == y.row && y.col == j then x.data * y.data else 0);
      if x.col == y.row {
        var w := Get(prev.entries, x.row, y.col) + x.data * y.data;
        assert MultiplyRow(acc, x, bs) == SetElement(prev, x.row, y.col, w);
        if !(x.row == i && y.col == j) {
          SetElementFrame(prev, x.row, y.col, w, i, j);
        }
      }
    }
  }

  lemma {:induction false} MultiplyAllGet(acc: SparseMatrix, xs: seq<Entry>, bs: seq<Entry>, i: int, j: int)
    requires Valid(acc)
    ensures Get(MultiplyAll(acc, xs, bs).entries, i, j) == Get(acc.entries, i, j) + PairSum(xs, bs, i, j)
    decreases |xs|
  {
    if |xs| > 0 {
      MultiplyAllGet(acc, xs[..|xs| - 1], bs, i, j);
      MultiplyRowGet(MultiplyAll(acc, xs[..|xs| - 1], bs), xs[|xs| - 1], bs, i, j);
    }
  }

  /** `multiply`: a dimension error unless A's columns match B's rows, else a fresh well-formed product. */
  function Multiply(a: SparseMatrix, b: SparseMatrix): (res: Result<SparseMatrix, MatrixError>)
    ensures res.Failure? <==> a.numCols != b.numRows
    ensures res.Failure? ==> res.error == DimensionMismatch(MultiplyMismatchMessage)
    ensures res.Success? ==> res.value.numRows == a.numRows && res.value.numCols == b.numCols && Valid(res.value)
  {
    if a.numCols != b.numRows then Failure(DimensionMismatch(MultiplyMismatchMessage))
    else Success(MultiplyAll(New(a.numRows, b.numCols), a.entries, b.entries))
  }

  /** Element-wise product for any operands: the sum of products over all matching entry pairs. */
  lemma MultiplyGet(a: SparseMatrix, b: SparseMatrix, i: int, j: int)
    requires a.numCols == b.numRows
    ensures Get(Multiply(a, b).value.entries, i, j) == PairSum(a.entries, b.entries, i, j)
  {
    MultiplyAllGet(New(a.numRows, b.numCols), a.entries, b.entries, i, j);
  }

  /** The textbook product cell: the sum over k in [0, n) of A[i][k] * B[k][j], each read by lookup. */
  function Dot(xs: seq<Entry>, bs: seq<Entry>, i: int, j: int, n: int): int
    decreases n
  {
    if n <= 0 then 0
    else Dot(xs, bs, i, j, n - 1) + Get(xs, i, n - 1) * Get(bs, n - 1, j)
  }

  /** Like `Dot`, with each lookup replaced by the sum over every entry at the cell. */
  function KeyDot(xs: seq<Entry>, bs: seq<Entry>, i: int, j: int, n: int): int
    decreases n
  {
    if n <= 0 then 0
    else KeyDot(xs, bs, i, j, n - 1) + KeySum(xs, i, n - 1) * KeySum(bs, n - 1, j)
  }

  lemma {:induction false} RowProductsIsKeySum(x: Entry, bs: seq<Entry>, i: int, j: int)
    ensures RowProducts(x, bs, i, j) == if x.row == i then x.data * KeySum(bs, x.col, j) else 0
    decreases |bs|
  {
    if |bs| > 0 {
      RowProductsIsKeySum(x, bs[..|bs| - 1], i, j);
    }
  }

  lemma {:induction false} KeyDotAppend(init: seq<Entry>, e: Entry, bs: seq<Entry>, i: int, j: int, n: int)
    ensures KeyDot(init + [e], bs, i, j, n) ==
      KeyDot(init, bs, i, j, n) + (if e.row == i && 0 <= e.col < n then e.data * KeySum(bs, e.col, j) else 0)
    decreases n
  {
    if n > 0 {
      KeyDotAppend(init, e, bs, i, j, n - 1);
      var es := init + [e];
      assert es[..|es| - 1] == init;
      var k := n - 1;
      assert KeySum(es, i, k) == KeySum(init, i, k) + (if HasKey(e, i, k) then e.data else 0);
      assert KeySum(es, i, k) * KeySum(bs, k, j)
        == KeySum(init, i, k) * KeySum(bs, k, j) + (if HasKey(e, i, k) then e.data * KeySum(bs, k, j) else 0);
    }
  }

  /** When every column of A lies in [0, n), the pair sum regroups by inner index. */
  lemma {:induction false} PairSumIsKeyDot(xs: seq<Entry>, bs: seq<Entry>, i: int, j: int, n: int)
    requires forall k :: 0 <= k < |xs| ==> 0 <= xs[k].col < n
    ensures PairSum(xs, bs, i, j) == KeyDot(xs, bs, i, j, n)
    decreases |xs|
  {
    if |xs| == 0 {
      KeyDotEmpty(bs, i, j, n);
    } else {
      var init := xs[..|xs| - 1];
      var e := xs[|xs| - 1];
      assert xs == init + [e];
      assert forall k :: 0 <= k < |init| ==> init[k] == xs[k];
      PairSumIsKeyDot(init, bs, i, j, n);
      RowProductsIsKeySum(e, bs, i, j);
      KeyDotAppend(init, e, bs, i, j, n);
    }
  }

  lemma {:induction false} KeyDotEmpty(bs: seq<Entry>, i: int, j: int, n: int)
    ensures KeyDot([], bs, i, j, n) == 0
    decreases n
  {
    if n > 0 {
      KeyDotEmpty(bs, i, j, n - 1);
    }
  }

  lemma {:induction false} KeyDotIsDot(xs: seq<Entry>, bs: seq<Entry>, i: int, j: int, n: int)
    requires UniqueKeys(xs) && UniqueKeys(bs)
    ensures KeyDot(xs, bs, i, j, n) == Dot(xs, bs, i, j, n)
    decreases n
  {
    if n > 0 {
      KeyDotIsDot(xs, bs, i, j, n - 1);
      KeySumUnique(xs, i, n - 1);
      KeySumUnique(bs, n - 1, j);
      var x, y := KeySum(xs, i, n - 1), KeySum(bs, n - 1, j);
      assert KeyDot(xs, bs, i, j, n) == KeyDot(xs, bs, i, j, n - 1) + x * y;
      assert Get(xs, i, n - 1) * Get(bs, n - 1, j) == x * y;
      assert Dot(xs, bs, i, j, n) == Dot(xs, bs, i, j, n - 1) + x * y;
    }
  }

  /**
   * For well-formed operands (unique keys, every column of A inside
   * [0, A.numCols)) the sparse product is the textbook product.
   */
  lemma MultiplyIsProduct(a: SparseMatrix, b: SparseMatrix, i: int, j: int)
    requires a.numCols == b.numRows
    requires UniqueKeys(a.entries) && UniqueKeys(b.entries)
    requires forall k :: 0 <= k < |a.entries| ==> 0 <= a.entries[k].col < a.numCols
    ensures Get(Multiply(a, b).value.entries, i, j) == Dot(a.entries, b.entries, i, j, a.numCols)
  {
    MultiplyGet(a, b, i, j);
    PairSumIsKeyDot(a.entries, b.entries, i, j, a.numCols);
    KeyDotIsDot(a.entries, b.entries, i, j, a.numCols);
  }

  // ---------------------------------------------------------------------
  // reference sums under unique keys

  lemma {:induction false} LastValueAbsent(es: seq<Entry>, r: int, c: int)
    requires !Present(es, r, c)
    ensures LastValue(es, r, c) == 0
    decreases |es|
  {
    if |es| > 0 {
      SplitLast(es, r, c);
      LastValueAbsent(es[..|es| - 1], r, c);
    }
  }

  lemma {:induction false} KeySumAbsent(es: seq<Entry>, r: int, c: int)
    requires !Present(es, r, c)
    ensures KeySum(es, r, c) == 0
    decreases |es|
  {
    if |es| > 0 {
      SplitLast(es, r, c);
      KeySumAbsent(es[..|es| - 1], r, c);
    }
  }

  /** A prefix of a list with unique keys has unique keys. */
  lemma InitUnique(es: seq<Entry>)
    requires |es| > 0 && UniqueKeys(es)
    ensures UniqueKeys(es[..|es| - 1])
  {
    var init := es[..|es| - 1];
    assert forall k :: 0 <= k < |init| ==> init[k] == es[k];
  }

  /** Under unique keys, the last entry at a cell is the first one. */
  lemma {:induction false} LastValueUnique(es: seq<Entry>, r: int, c: int)
    requires UniqueKeys(es)
    ensures LastValue(es, r, c) == Get(es, r, c)
    decreases |es|
  {
    if |es| > 0 {
      var init := es[..|es| - 1];
      var e := es[|es| - 1];
      assert es == init + [e];
      if HasKey(e, r, c) {
        GetUnique(es, |es| - 1, r, c);
      } else {
        InitUnique(es);
        LastValueUnique(init, r, c);
        GetAppend(init, e, r, c);
      }
    }
  }

  /** Under unique keys, the sum over a cell's entries is its one value. */
  lemma {:induction false} KeySumUnique(es: seq<Entry>, r: int, c: int)
    requires UniqueKeys(es)
    ensures KeySum(es, r, c) == Get(es, r, c)
    decreases |es|
  {
    if |es| > 0 {
      var init := es[..|es| - 1];
      var e := es[|es| - 1];
      assert es == init + [e];
      InitUnique(es);
      if HasKey(e, r, c) {
        GetUnique(es, |es| - 1, r, c);
        assert !Present(init, r, c) by {
          forall k | 0 <= k < |init|
            ensures !HasKey(init[k], r, c)
          {
            assert init[k] == es[k];
          }
        }
        KeySumAbsent(init, r, c);
      } else {
        KeySumUnique(init, r, c);
        GetAppend(init, e, r, c);
      }
    }
  }
}

=== FILE: entries.dfy ===
/**
 * The entry list of a sparse matrix: the linked list of `Node`s, seen as a
 * sequence in list order (head first, tail last). List order decides which
 * entry a lookup finds when a key occurs more than once.
 */
module Entries {
  import opened Results

  /** One stored cell: the value `data` at (`row`, `col`). */
  datatype Entry = Entry(row: int, col: int, data: int)

  /** True when the entry sits at cell (r, c). */
  predicate HasKey(e: Entry, r: int, c: int) {
    e.row == r && e.col == c
  }

  /** Some entry of the list sits at cell (r, c). */
  predicate Present(es: seq<Entry>, r: int, c: int) {
    exists i :: 0 <= i < |es| && HasKey(es[i], r, c)
  }

  /** No stored value is zero. */
  predicate NoZeros(es: seq<Entry>) {
    forall i :: 0 <= i < |es| ==> es[i].data != 0
  }

  /** At most one entry per cell. */
  predicate UniqueKeys(es: seq<Entry>) {
    forall i, j :: 0 <= i < j < |es| ==> !HasKey(es[j], es[i].row, es[i].col)
  }

  /**
   * The list traversal shared by lookup and update: the index of the first
   * entry, in list order, whose key is (r, c).
   */
  function Scan(es: seq<Entry>, r: int, c: int): (o: Option<nat>)
    ensures o.Some? ==> o.value < |es| && HasKey(es[o.value], r, c)
    ensures o.Some? ==> forall j :: 0 <= j < o.value ==> !HasKey(es[j], r, c)
    ensures o.None? <==> !Present(es, r, c)
  {
    if |es| == 0 then None
    else if HasKey(es[0], r, c) then Some(0)
    else match Scan(es[1..], r, c)
      case None =>
        assert forall j :: 1 <= j < |es| ==> es[j] == es[1..][j - 1];
        None
      case Some(i) => Some(i + 1)
  }

  /**
   * Lookup: the value of the first entry whose key is (r, c), or 0 when there
   * is none. No bounds are checked against the declared dimensions.
   */
  function Get(es: seq<Entry>, r: int, c: int): (v: int)
    ensures !Present(es, r, c) ==> v == 0
    ensures forall i :: 0 <= i < |es| && HasKey(es[i], r, c) && (forall j :: 0 <= j < i ==> !HasKey(es[j], r, c)) ==> v == es[i].data
  {
    match Scan(es, r, c)
    case None => 0
    case Some(i) => es[i].data
  }

  /** Under unique keys, lookup returns the value of the one entry at (r, c). */
  lemma GetUnique(es: seq<Entry>, i: int, r: int, c: int)
    requires UniqueKeys(es)
    requires 0 <= i < |es| && HasKey(es[i], r, c)
    ensures Get(es, r, c) == es[i].data
  {
    forall j | 0 <= j < i
      ensures !HasKey(es[j], r, c)
    {
      assert !HasKey(es[i], es[j].row, es[j].col);
    }
  }

  /**
   * Under the invariant (no zeros, unique keys) the list is determined, as a
   * set, by lookup: an entry is stored exactly when its value is nonzero and
   * lookup at its cell returns that value.
   */
  lemma StoredIffGet(es: seq<Entry>, e: Entry)
    requires NoZeros(es) && UniqueKeys(es)
    ensures e in es <==> e.data != 0 && Get(es, e.row, e.col) == e.data
  {
    if e in es {
      var i :| 0 <= i < |es| && es[i] == e;
      GetUnique(es, i, e.row, e.col);
    }
  }

  /** A nonzero lookup result is the value of an entry stored at that cell. */
  lemma GetStored(es: seq<Entry>, r: int, c: int)
    ensures Get(es, r, c) != 0 ==> Entry(r, c, Get(es, r, c)) in es
  {
  }

  /** Appending at the tail never changes the lookup of a cell already present. */
  lemma GetAppend(es: seq<Entry>, e: Entry, r: int, c: int)
    ensures Get(es + [e], r, c) ==
      if Present(es, r, c) then Get(es, r, c)
      else if HasKey(e, r, c) then e.data
      else 0
  {
    var s := es + [e];
    if Present(es, r, c) {
      var p := Scan(es, r, c).value;
      assert s[p] == es[p];
    } else if HasKey(e, r, c) {
      assert s[|es|] == e;
    } else {
      assert forall k :: 0 <= k < |s| ==> s[k] == if k < |es| then es[k] else e;
    }
  }

  /** Unlinking an entry at another cell does not change the lookup of (r, c). */
  lemma GetRemoveOther(es: seq<Entry>, i: int, r: int, c: int)
    requires 0 <= i < |es| && !HasKey(es[i], r, c)
    ensures Get(es[..i] + es[i + 1..], r, c) == Get(es, r, c)
  {
    var s := es[..i] + es[i + 1..];
    assert forall k :: 0 <= k < |s| ==> s[k] == if k < i then es[k] else es[k + 1];
    match Scan(es, r, c)
    case None =>
    case Some(p) =>
      if p < i {
        assert s[p] == es[p];
      } else {
        assert s[p - 1] == es[p];
      }
  }

  /** Unlinking the only entry at (r, c) leaves the cell absent. */
  lemma GetRemoveUnique(es: seq<Entry>, i: int, r: int, c: int)
    requires UniqueKeys(es)
    requires 0 <= i < |es| && HasKey(es[i], r, c)
    ensures !Present(es[..i] + es[i + 1..], r, c)
  {
    var s := es[..i] + es[i + 1..];
    forall k | 0 <= k < |s|
      ensures !HasKey(s[k], r, c)
    {
      if k < i {
        assert s[k] == es[k];
      } else {
        assert s[k] == es[k + 1];
      }
    }
  }

  /** Overwriting an entry at another cell does not change the lookup of (r, c). */
  lemma GetReplaceOther(es: seq<Entry>, i: int, e: Entry, r: int, c: int)
    requires 0 <= i < |es| && !HasKey(es[i], r, c) && !HasKey(e, r, c)
    ensures Get(es[i := e], r, c) == Get(es, r, c)
  {
    var s := es[i := e];
    match Scan(es, r, c)
    case None =>
      assert forall k :: 0 <= k < |s| ==> s[k] == es[k] || s[k] == e;
    case Some(p) =>
      assert s[p] == es[p];
  }

  /**
   * Reference meaning of an update of cell (r, c) on a list with unique keys:
   * the entry at (r, c) takes the value v, or disappears when v is 0, and the
   * other entries keep their relative order.
   */
  function Rewrite(es: seq<Entry>, r: int, c: int, v: int): seq<Entry>
  {
    if |es| == 0 then []
    else
      (if HasKey(es[0], r, c) then (if v == 0 then [] else [Entry(r, c, v)]) else [es[0]])
      + Rewrite(es[1..], r, c, v)
  }

  /** Value of the LAST entry at (r, c) in list order, or 0 when there is none. */
  function LastValue(es: seq<Entry>, r: int, c: int): int
  {
    if |es| == 0 then 0
    else if HasKey(es[|es| - 1], r, c) then es[|es| - 1].data
    else LastValue(es[..|es| - 1], r, c)
  }

  /** Sum of the values of every entry at (r, c), duplicates included. */
  function KeySum(es: seq<Entry>, r: int, c: int): int
  {
    if |es| == 0 then 0
    else KeySum(es[..|es| - 1], r, c) + (if HasKey(es[|es| - 1], r, c) then es[|es| - 1].data else 0)
  }
}

=== FILE: loader.dfy ===
/**
 * `load_matrix` over lines already read from the file: two header lines
 * (`rows=<int>`, `cols=<int>`), then one triple `(<int>,<int>,<int>)` or a
 * blank per line. Every failure is reported as the one format error.
 */
module Loader {
  import opened Results
  import opened Text
  import opened Entries
  import opened Matrix

  /** What the body loop makes of one line. */
  datatype Line = Blank | Triple(row: int, col: int, value: int) | Malformed

  /**
   * One body line, stripped: empty is skipped; `(` ... `)` whose inside
   * splits at commas into exactly three integers is a triple; anything else
   * is malformed.
   */
  function ClassifyLine(line: string): (k: Line)
    ensures k.Blank? <==> forall i :: 0 <= i < |line| ==> IsSpace(line[i])
    ensures k.Triple? ==> |Strip(line)| >= 2 && Strip(line)[0] == '(' && Strip(line)[|Strip(line)| - 1] == ')'
    ensures |Strip(line)| > 0 && (Strip(line)[0] != '(' || Strip(line)[|Strip(line)| - 1] != ')') ==> k.Malformed?
  {
    var t := Strip(line);
    if t == "" then Blank
    else if t[0] == '(' && t[|t| - 1] == ')' then
      var fields := Split(t[1..|t| - 1], ',');
      if |fields| == 3 then ReadTriple(fields[0], fields[1], fields[2]) else Malformed
    else Malformed
  }

  /** `row, col, value = map(int, fields)`: all three must read as integers. */
  function ReadTriple(row: string, col: string, value: string): (k: Line)
    ensures k.Triple? || k.Malformed?
  {
    var r := ParseInt(row);
    var c := ParseInt(col);
    var v := ParseInt(value);
    if r.Some? && c.Some? && v.Some? then Triple(r.value, c.value, v.value) else Malformed
  }

  /**
   * Reference shape of a triple line: `t` is "(x,y,z)" for three fields
   * without commas, each of which `int()` reads.
   */
  predicate TripleOf(t: string, x: string, y: string, z: string, r: int, c: int, v: int) {
    && ',' !in x && ',' !in y && ',' !in z
    && t == "(" + x + "," + y + "," + z + ")"
    && ParseInt(x) == Some(r) && ParseInt(y) == Some(c) && ParseInt(z) == Some(v)
  }

  /** A line classified as a triple has that shape, with the fields the split found. */
  lemma ClassifyTripleSound(line: string)
    requires ClassifyLine(line).Triple?
    ensures var k := ClassifyLine(line);
      exists x, y, z :: TripleOf(Strip(line), x, y, z, k.row, k.col, k.value)
  {
    var t := Strip(line);
    var fields := Split(t[1..|t| - 1], ',');
    var k := ReadTriple(fields[0], fields[1], fields[2]);
    assert ClassifyLine(line) == k;
    SplitJoin(fields, ',');
    var x, y, z := fields[0], fields[1], fields[2];
    assert forall i :: 0 <= i < 3 ==> ',' !in fields[i];
    assert fields == [x, y, z];
    Rebracket(t, x, y, z);
    assert TripleOf(t, x, y, z, k.row, k.col, k.value);
  }

  /** A bracketed text whose inside is the comma join of three fields is "(x,y,z)". */
  lemma Rebracket(t: string, x: string, y: string, z: string)
    requires |t| >= 2 && t[0] == '(' && t[|t| - 1] == ')'
    requires t[1..|t| - 1] == Join([x, y, z], ',')
    ensures t == "(" + x + "," + y + "," + z + ")"
  {
    var text := "(" + x + "," + y + "," + z + ")";
    InsideIsJoin(x, y, z);
    assert |text| == |t|;
    forall k | 0 <= k < |t|
      ensures t[k] == text[k]
    {
      if 0 < k < |t| - 1 {
        assert t[k] == t[1..|t| - 1][k - 1];
        assert text[k] == text[1..|text| - 1][k - 1];
      }
    }
  }

  /** A line of that shape is classified as its triple. */
  lemma ClassifyTripleComplete(line: string, x: string, y: string, z: string, r: int, c: int, v: int)
    requires TripleOf(Strip(line), x, y, z, r, c, v)
    ensures ClassifyLine(line) == Triple(r, c, v)
  {
    SplitThree(x, y, z);
  }

  /**
   * A body line yields the triple (r, c, v) exactly when, stripped, it is
   * "(x,y,z)" with comma-free fields that `int()` reads as r, c and v.
   */
  lemma ClassifyTripleIff(line: string, r: int, c: int, v: int)
    ensures ClassifyLine(line) == Triple(r, c, v) <==> exists x, y, z :: TripleOf(Strip(line), x, y, z, r, c, v)
  {
    if ClassifyLine(line) == Triple(r, c, v) {
      ClassifyTripleSound(line);
    }
    if exists x, y, z :: TripleOf(Strip(line), x, y, z, r, c, v) {
      var x, y, z :| TripleOf(Strip(line), x, y, z, r, c, v);
      ClassifyTripleComplete(line, x, y, z, r, c, v);
    }
  }

  /**
   * A body line stops the load exactly when it is not all whitespace and is
   * not "(x,y,z)" with comma-free fields that `int()` reads.
   */
  lemma ClassifyMalformedIff(line: string)
    ensures ClassifyLine(line).Malformed? <==>
      && (exists i :: 0 <= i < |line| && !IsSpace(line[i]))
      && !exists x, y, z, r, c, v :: TripleOf(Strip(line), x, y, z, r, c, v)
  {
    var k := ClassifyLine(line);
    if k.Triple? {
      ClassifyTripleSound(line);
    }
    if exists x, y, z, r, c, v :: TripleOf(Strip(line), x, y, z, r, c, v) {
      var x, y, z, r, c, v :| TripleOf(Strip(line), x, y, z, r, c, v);
      ClassifyTripleComplete(line, x, y, z, r, c, v);
    }
  }

  /** The text of a triple with gap `w` after each comma: "(r,c,v)" for the empty gap. */
  function TripleText(r: int, c: int, v: int, w: string): string {
    "(" + Show(r) + "," + (w + Show(c)) + "," + (w + Show(v)) + ")"
  }

  /** The line `print_matrix` writes for an entry: "(row, col, data)". */
  function FormatEntry(e: Entry): string {
    TripleText(e.row, e.col, e.data, " ")
  }

  /** The inside of "(x,y,z)" is the comma join of the three fields. */
  lemma InsideIsJoin(x: string, y: string, z: string)
    ensures var text := "(" + x + "," + y + "," + z + ")";
      text[1..|text| - 1] == Join([x, y, z], ',')
  {
    var parts := [x, y, z];
    assert parts[1..] == [y, z];
    assert parts[1..][1..] == [z];
    assert Join([z], ',') == z;
    assert Join([y, z], ',') == y + [','] + z;
    assert Join(parts, ',') == x + [','] + (y + [','] + z);
    var text := "(" + x + "," + y + "," + z + ")";
    assert text[1..|text| - 1] == x + "," + y + "," + z;
  }

  /** The inside of a triple's parentheses splits at its two commas. */
  lemma TripleFields(r: int, c: int, v: int, w: string)
    requires forall k :: 0 <= k < |w| ==> IsSpace(w[k])
    ensures var text := TripleText(r, c, v, w);
      Split(text[1..|text| - 1], ',') == [Show(r), w + Show(c), w + Show(v)]
  {
    var x, y, z := Show(r), w + Show(c), w + Show(v);
    NoCommaAfterGap("", r);
    assert "" + Show(r) == x;
    NoCommaAfterGap(w, c);
    NoCommaAfterGap(w, v);
    SplitThree(x, y, z);
  }

  /** The inside of "(x,y,z)" with comma-free fields splits back into the fields. */
  lemma SplitThree(x: string, y: string, z: string)
    requires ',' !in x && ',' !in y && ',' !in z
    ensures var text := "(" + x + "," + y + "," + z + ")";
      Split(text[1..|text| - 1], ',') == [x, y, z]
  {
    InsideIsJoin(x, y, z);
    var parts := [x, y, z];
    assert forall k :: 0 <= k < 3 ==> ',' !in parts[k];
    SplitJoin(parts, ',');
  }

  /** A rendered integer after a whitespace gap holds no comma. */
  lemma NoCommaAfterGap(w: string, n: int)
    requires forall k :: 0 <= k < |w| ==> IsSpace(w[k])
    ensures ',' !in w + Show(n)
  {
    var s := w + Show(n);
    assert forall k :: 0 <= k < |s| ==> s[k] != ',' by {
      forall k | 0 <= k < |s|
        ensures s[k] != ','
      {
        if k < |w| {
          assert s[k] == w[k];
        } else {
          assert s[k] == Show(n)[k - |w|];
        }
      }
    }
  }

  /** Three rendered integers, the last two after a whitespace gap, read back as the triple. */
  lemma ReadTripleShow(r: int, c: int, v: int, w: string)
    requires forall k :: 0 <= k < |w| ==> IsSpace(w[k])
    ensures ReadTriple(Show(r), w + Show(c), w + Show(v)) == Triple(r, c, v)
  {
    ParseIntShow("", r, "");
    ParseIntShow(w, c, "");
    ParseIntShow(w, v, "");
    assert "" + Show(r) + "" == Show(r);
    assert w + Show(c) + "" == w + Show(c);
    assert w + Show(v) + "" == w + Show(v);
  }

  /**
   * A triple written with any whitespace gap after the commas, and any
   * whitespace around the line, reads back as that triple.
   */
  lemma ClassifyTripleText(pre: string, r: int, c: int, v: int, w: string, post: string)
    requires forall k :: 0 <= k < |pre| ==> IsSpace(pre[k])
    requires forall k :: 0 <= k < |w| ==> IsSpace(w[k])
    requires forall k :: 0 <= k < |post| ==> IsSpace(post[k])
    ensures ClassifyLine(pre + TripleText(r, c, v, w) + post) == Triple(r, c, v)
  {
    var text := TripleText(r, c, v, w);
    StripPadded(pre, text, post);
    TripleFields(r, c, v, w);
    ReadTripleShow(r, c, v, w);
  }

  /** Every line `print_matrix` writes is a valid body line for the same entry. */
  lemma PrintedLineLoads(e: Entry)
    ensures ClassifyLine(FormatEntry(e)) == Triple(e.row, e.col, e.data)
  {
    var line := FormatEntry(e);
    assert forall k :: 0 <= k < |" "| ==> IsSpace(" "[k]);
    assert "" + line + "" == line;
    ClassifyTripleText("", e.row, e.col, e.data, " ", "");
  }

  /** Every line of the body, classified, in file order. */
  function Classify(lines: seq<string>): (ks: seq<Line>)
    ensures |ks| == |lines|
    ensures forall i :: 0 <= i < |lines| ==> ks[i] == ClassifyLine(lines[i])
  {
    seq(|lines|, i requires 0 <= i < |lines| => ClassifyLine(lines[i]))
  }

  /** The entries one classified line contributes: its triple unless the value is zero. */
  function Contribution(k: Line): seq<Entry> {
    if k.Triple? && k.value != 0 then [Entry(k.row, k.col, k.value)] else []
  }

  /** Reference meaning of a body: the nonzero triples, in file order, duplicates kept. */
  function Triples(ks: seq<Line>): (es: seq<Entry>)
    ensures NoZeros(es)
    ensures |es| <= |ks|
    decreases |ks|
  {
    if |ks| == 0 then []
    else Contribution(ks[0]) + Triples(ks[1..])
  }

  /** Triples of a concatenation: the body is read line by line, in order. */
  lemma {:induction false} TriplesAppend(xs: seq<Line>, ys: seq<Line>)
    ensures Triples(xs + ys) == Triples(xs) + Triples(ys)
    decreases |xs|
  {
    if |xs| == 0 {
      assert xs + ys == ys;
    } else {
      var here := Contribution(xs[0]);
      assert (xs + ys)[0] == xs[0];
      assert (xs + ys)[1..] == xs[1..] + ys;
      TriplesAppend(xs[1..], ys);
      calc {
        Triples(xs + ys);
        here + Triples(xs[1..] + ys);
        here + (Triples(xs[1..]) + Triples(ys));
        (here + Triples(xs[1..])) + Triples(ys);
      }
    }
  }

  /** Every loaded entry comes from a triple line with a nonzero value. */
  lemma {:induction false} TriplesSound(ks: seq<Line>, e: Entry)
    requires e in Triples(ks)
    ensures e.data != 0
    ensures exists i :: 0 <= i < |ks| && ks[i] == Triple(e.row, e.col, e.data)
    decreases |ks|
  {
    if ks[0] != Triple(e.row, e.col, e.data) {
      TriplesSound(ks[1..], e);
      var i :| 0 <= i < |ks[1..]| && ks[1..][i] == Triple(e.row, e.col, e.data);
      assert ks[i + 1] == ks[1..][i];
    }
  }

  /** Every triple line with a nonzero value is loaded. */
  lemma {:induction false} TriplesComplete(ks: seq<Line>, i: int)
    requires 0 <= i < |ks| && ks[i].Triple? && ks[i].value != 0
    ensures Entry(ks[i].row, ks[i].col, ks[i].value) in Triples(ks)
    decreases |ks|
  {
    if i > 0 {
      assert ks[1..][i - 1] == ks[i];
      TriplesComplete(ks[1..], i - 1);
    }
  }

  /**
   * The body loop over the classified lines: blanks are skipped, each
   * nonzero triple is appended with `_create_node` (no key check), zero
   * triples are dropped, and the first malformed line stops the load with
   * the format error.
   */
  function LoadBody(m: SparseMatrix, ks: seq<Line>): (res: Result<SparseMatrix, MatrixError>)
    ensures res.Failure? <==> exists i :: 0 <= i < |ks| && ks[i].Malformed?
    ensures res.Failure? ==> res.error == InvalidFormat
    ensures res.Success? ==> res.value.numRows == m.numRows && res.value.numCols == m.numCols
    ensures res.Success? && m.size == |m.entries| ==> res.value.entries == m.entries + Triples(ks)
    ensures res.Success? ==> res.value.size == m.size + |Triples(ks)|
    decreases |ks|
  {
    if |ks| == 0 then Success(m)
    else
      MalformedSplit(ks);
      match ks[0]
      case Malformed => Failure(InvalidFormat)
      case Blank =>
        assert Triples(ks) == Triples(ks[1..]);
        LoadBody(m, ks[1..])
      case Triple(r, c, v) =>
        if v != 0 then
          var next := CreateNode(m, r, c, v);
          assert Triples(ks) == [Entry(r, c, v)] + Triples(ks[1..]);
          AppendAssoc(m.entries, Entry(r, c, v), Triples(ks[1..]));
          LoadBody(next, ks[1..])
        else
          assert Triples(ks) == Triples(ks[1..]);
          LoadBody(m, ks[1..])
  }

  lemma AppendAssoc(es: seq<Entry>, e: Entry, ts: seq<Entry>)
    ensures es + ([e] + ts) == (es + [e]) + ts
  {
  }

  /** A body holds a malformed line exactly when its first line is malformed or the rest holds one. */
  lemma MalformedSplit(ks: seq<Line>)
    requires |ks| > 0
    ensures (exists i :: 0 <= i < |ks| && ks[i].Malformed?) <==>
      ks[0].Malformed? || exists i :: 0 <= i < |ks[1..]| && ks[1..][i].Malformed?
  {
    assert forall i :: 1 <= i < |ks| ==> ks[i] == ks[1..][i - 1];
  }

  /** A header line: the text after the first '=' (up to any second '='), read by `int()`. */
  function ParseHeader(line: string): (o: Option<int>)
    ensures (forall k :: 0 <= k < |line| ==> line[k] != '=') ==> o.None?
  {
    var parts := Split(line, '=');
    if |parts| < 2 then None
    else
      JoinFront(parts, '=');
      assert line[|parts[0]|] == '=';
      ParseInt(parts[1])
  }

  /** The first two pieces of a join, then the separator and the rest when there is a rest. */
  lemma JoinFront(parts: seq<string>, sep: char)
    requires |parts| >= 2
    ensures Join(parts, sep) == parts[0] + [sep] + parts[1] + (if |parts| == 2 then [] else [sep] + Join(parts[2..], sep))
  {
    assert parts[1..][0] == parts[1];
    if |parts| > 2 {
      assert parts[1..][1..] == parts[2..];
    }
  }

  /**
   * Reference shape of a header line: a name without '=', then '=', then
   * the field up to the next '=' or the end of the line.
   */
  predicate HeaderOf(line: string, name: string, field: string, tail: string) {
    && '=' !in name && '=' !in field
    && (tail == [] || tail[0] == '=')
    && line == name + "=" + field + tail
  }

  /** A header that reads as n has that shape, with a field `int()` reads as n. */
  lemma ParseHeaderSound(line: string, n: int)
    requires ParseHeader(line) == Some(n)
    ensures exists name, field, tail :: HeaderOf(line, name, field, tail) && ParseInt(field) == Some(n)
  {
    var parts := Split(line, '=');
    var name, field := parts[0], parts[1];
    var tail := if |parts| == 2 then [] else ['='] + Join(parts[2..], '=');
    JoinFront(parts, '=');
    assert HeaderOf(line, name, field, tail);
  }

  /** A line of that shape reads as whatever `int()` makes of its field. */
  lemma ParseHeaderComplete(line: string, name: string, field: string, tail: string)
    requires HeaderOf(line, name, field, tail)
    ensures ParseHeader(line) == ParseInt(field)
  {
    var more := if tail == [] then [] else Split(tail[1..], '=');
    var parts := [name, field] + more;
    JoinFront(parts, '=');
    if tail != [] {
      assert parts[2..] == more;
      assert tail == ['='] + tail[1..];
    }
    assert Join(parts, '=') == line;
    assert forall k :: 0 <= k < |parts| ==> '=' !in parts[k];
    SplitJoin(parts, '=');
  }

  /**
   * A header reads as n exactly when it has the header shape with a field
   * that `int()` reads as n.
   */
  lemma ParseHeaderIff(line: string, n: int)
    ensures ParseHeader(line) == Some(n) <==>
      exists name, field, tail :: HeaderOf(line, name, field, tail) && ParseInt(field) == Some(n)
  {
    if ParseHeader(line) == Some(n) {
      ParseHeaderSound(line, n);
    }
    if exists name, field, tail :: HeaderOf(line, name, field, tail) && ParseInt(field) == Some(n) {
      var name, field, tail :| HeaderOf(line, name, field, tail) && ParseInt(field) == Some(n);
      ParseHeaderComplete(line, name, field, tail);
    }
  }

  /** "name=<n>" followed by any whitespace (the newline, say) reads back as n, whatever the name. */
  lemma ParseHeaderShow(name: string, n: int, post: string)
    requires '=' !in name
    requires forall k :: 0 <= k < |post| ==> IsSpace(post[k])
    ensures ParseHeader(name + "=" + Show(n) + post) == Some(n)
  {
    var line := name + "=" + Show(n) + post;
    var tail := Show(n) + post;
    var parts := [name, tail];
    NoEqualsBeforeGap(n, post);
    assert parts[1..] == [tail];
    assert Join(parts, '=') == name + "=" + tail;
    assert line == name + "=" + tail;
    SplitJoin(parts, '=');
    assert "" + Show(n) + post == tail;
    ParseIntShow("", n, post);
  }

  /** A rendered integer followed by whitespace holds no '='. */
  lemma NoEqualsBeforeGap(n: int, post: string)
    requires forall k :: 0 <= k < |post| ==> IsSpace(post[k])
    ensures '=' !in Show(n) + post
  {
    var s := Show(n) + post;
    forall k | 0 <= k < |s|
      ensures s[k] != '='
    {
      if k < |Show(n)| {
        assert s[k] == Show(n)[k];
      } else {
        assert s[k] == post[k - |Show(n)|];
      }
    }
  }

  /**
   * `load_matrix`: both header lines must be present and read as integers,
   * and every body line must be blank or a triple; otherwise the format
   * error. On success the entries are the nonzero triples in file order.
   */
  function Load(lines: seq<string>): (res: Result<SparseMatrix, MatrixError>)
    ensures res.Failure? ==> res.error == InvalidFormat && Message(res.error) == "Invalid format in input file"
    ensures res.Success? <==>
      && |lines| >= 2
      && ParseHeader(lines[0]).Some? && ParseHeader(lines[1]).Some?
      && forall i :: 2 <= i < |lines| ==> !ClassifyLine(lines[i]).Malformed?
    ensures res.Success? ==>
      && res.value.numRows == ParseHeader(lines[0]).value
      && res.value.numCols == ParseHeader(lines[1]).value
      && res.value.entries == Triples(Classify(lines[2..]))
      && res.value.size == |res.value.entries|
      && NoZeros(res.value.entries)
  {
    if |lines| < 2 then Failure(InvalidFormat)
    else
      assert forall i :: 2 <= i < |lines| ==> lines[i] == lines[2..][i - 2];
      var rows := ParseHeader(lines[0]);
      var cols := ParseHeader(lines[1]);
      if rows.Some? && cols.Some? then LoadBody(New(rows.value, cols.value), Classify(lines[2..]))
      else Failure(InvalidFormat)
  }
}

=== FILE: matrix.dfy ===
/**
 * The `SparseMatrix` object: declared dimensions, the entry list and the
 * `size` counter that the list operations maintain by hand. The pointers
 * `head` and `tail` are the two ends of `entries`.
 */
module Matrix {
  import opened Results
  import opened Entries

  datatype SparseMatrix = SparseMatrix(numRows: int, numCols: int, entries: seq<Entry>, size: int)

  /** The two kinds of error the matrix code raises (both are `ValueError`s). */
  datatype MatrixError = DimensionMismatch(message: string) | InvalidFormat

  const InvalidFormatMessage: string := "Invalid format in input file"

  /** The text the error carries. */
  function Message(err: MatrixError): (msg: string)
    ensures err.InvalidFormat? ==> msg == InvalidFormatMessage
    ensures err.DimensionMismatch? ==> msg == err.message
  {
    match err
    case DimensionMismatch(text) => text
    case InvalidFormat => InvalidFormatMessage
  }

  /** The invariant `set_element` maintains: no zero, one entry per cell, `size` counts the list. */
  predicate Valid(m: SparseMatrix) {
    NoZeros(m.entries) && UniqueKeys(m.entries) && m.size == |m.entries|
  }

  /** An empty matrix of the given dimensions. */
  function New(rows: int, cols: int): (m: SparseMatrix)
    ensures m.numRows == rows && m.numCols == cols
    ensures Valid(m)
    ensures forall r, c :: Get(m.entries, r, c) == 0
  {
    SparseMatrix(rows, cols, [], 0)
  }

  /**
   * The list `_create_node` links onto: `is_empty()` reads the `size`
   * counter, so a zero count starts a fresh list whatever `entries` holds.
   */
  function Kept(m: SparseMatrix): (es: seq<Entry>)
    ensures m.size == 0 ==> es == []
    ensures m.size == |m.entries| ==> es == m.entries
    ensures es == [] || es == m.entries
  {
    if m.size == 0 then [] else m.entries
  }

  /**
   * Appends a node at the tail and bumps `size`; when `size` is 0 the node
   * becomes the whole list. No key check: an earlier entry at the same cell
   * keeps shadowing the new one.
   */
  function CreateNode(m: SparseMatrix, r: int, c: int, v: int): (m': SparseMatrix)
    ensures m'.numRows == m.numRows && m'.numCols == m.numCols && m'.size == m.size + 1
    ensures m.size == 0 ==> m'.entries == [Entry(r, c, v)]
    ensures m.size == |m.entries| ==> m'.entries == m.entries + [Entry(r, c, v)] && m'.size == |m'.entries|
    ensures m.size != 0 ==> |m'.entries| == |m.entries| + 1 && m'.entries[..|m.entries|] == m.entries
    ensures m'.entries[|m'.entries| - 1] == Entry(r, c, v)
    ensures NoZeros(m.entries) && v != 0 ==> NoZeros(m'.entries)
  {
    var es := Kept(m) + [Entry(r, c, v)];
    assert es == (if m.size == 0 then [Entry(r, c, v)] else m.entries + [Entry(r, c, v)]);
    m.(entries := es, size := m.size + 1)
  }

  /**
   * Lookup after `_create_node`: the list it kept still answers first, and
   * the new node only answers for its own cell when the kept list had none.
   */
  lemma CreateNodeGet(m: SparseMatrix, r: int, c: int, v: int, r2: int, c2: int)
    ensures Get(CreateNode(m, r, c, v).entries, r2, c2) ==
      if Present(Kept(m), r2, c2) then Get(Kept(m), r2, c2)
      else if r2 == r && c2 == c then v
      else 0
  {
    assert CreateNode(m, r, c, v).entries == Kept(m) + [Entry(r, c, v)];
    GetAppend(Kept(m), Entry(r, c, v), r2, c2);
  }

  /** Unlinks the entry at index i (the `prev.next = current.next` branch) and decrements `size`. */
  function Unlink(m: SparseMatrix, i: int): (m': SparseMatrix)
    requires 0 <= i < |m.entries|
    ensures m'.numRows == m.numRows && m'.numCols == m.numCols
    ensures m'.entries == m.entries[..i] + m.entries[i + 1..] && m'.size == m.size - 1
    ensures NoZeros(m.entries) ==> NoZeros(m'.entries)
    ensures UniqueKeys(m.entries) ==> UniqueKeys(m'.entries)
    ensures UniqueKeys(m.entries) ==> !Present(m'.entries, m.entries[i].row, m.entries[i].col)
  {
    var es := m.entries;
    var m' := m.(entries := es[..i] + es[i + 1..], size := m.size - 1);
    assert forall k :: 0 <= k < |m'.entries| ==> m'.entries[k] == if k < i then es[k] else es[k + 1];
    assert UniqueKeys(es) ==> !Present(m'.entries, es[i].row, es[i].col) by {
      if UniqueKeys(es) {
        GetRemoveUnique(es, i, es[i].row, es[i].col);
      }
    }
    m'
  }

  /** Overwrites the value of the entry at index i in place (`current.data = value`). */
  function Overwrite(m: SparseMatrix, i: int, v: int): (m': SparseMatrix)
    requires 0 <= i < |m.entries|
    ensures m'.numRows == m.numRows && m'.numCols == m.numCols && m'.size == m.size
    ensures m'.entries == m.entries[i := m.entries[i].(data := v)]
    ensures NoZeros(m.entries) && v != 0 ==> NoZeros(m'.entries)
    ensures UniqueKeys(m.entries) ==> UniqueKeys(m'.entries)
  {
    var es := m.entries;
    var m' := m.(entries := es[i := es[i].(data := v)]);
    assert UniqueKeys(es) ==> UniqueKeys(m'.entries) by {
      if UniqueKeys(es) {
        forall a, b | 0 <= a < b < |m'.entries|
          ensures !HasKey(m'.entries[b], m'.entries[a].row, m'.entries[a].col)
        {
          assert HasKey(m'.entries[a], es[a].row, es[a].col);
          assert HasKey(m'.entries[b], es[b].row, es[b].col);
        }
      }
    }
    m'
  }

  /**
   * The single update path: on the first entry at (r, c), unlink it when v
   * is 0 and overwrite its value otherwise; with no such entry, append
   * (r, c, v) unless v is 0.
   */
  function SetElement(m: SparseMatrix, r: int, c: int, v: int): (m': SparseMatrix)
    ensures m'.numRows == m.numRows && m'.numCols == m.numCols
    ensures v != 0 ==> Get(m'.entries, r, c) == v
    ensures v == 0 && UniqueKeys(m.entries) ==> !Present(m'.entries, r, c) && Get(m'.entries, r, c) == 0
    ensures NoZeros(m.entries) ==> NoZeros(m'.entries)
    ensures UniqueKeys(m.entries) ==> UniqueKeys(m'.entries)
    ensures m.size == |m.entries| ==> m'.size == |m'.entries|
    ensures Present(m.entries, r, c) && v == 0 ==> m'.size == m.size - 1 && |m'.entries| == |m.entries| - 1
    ensures Present(m.entries, r, c) && v != 0 ==> m'.size == m.size && |m'.entries| == |m.entries|
    ensures !Present(m.entries, r, c) && v != 0 ==> m'.entries == Kept(m) + [Entry(r, c, v)] && m'.size == m.size + 1
    ensures !Present(m.entries, r, c) && v == 0 ==> m' == m
    ensures forall i :: 0 <= i < |m.entries| && HasKey(m.entries[i], r, c) && (forall j :: 0 <= j < i ==> !HasKey(m.entries[j], r, c)) ==>
      m'.entries == if v == 0 then m.entries[..i] + m.entries[i + 1..] else m.entries[i := Entry(r, c, v)]
  {
    match Scan(m.entries, r, c)
    case Some(i) =>
      if v == 0 then Unlink(m, i)
      else
        var m' := Overwrite(m, i, v);
        assert m'.entries[i] == Entry(r, c, v);
        m'
    case None =>
      if v != 0 then
        CreateNodeGet(m, r, c, v, r, c);
        CreateNode(m, r, c, v)
      else m
  }

  /**
   * Updating (r, c) leaves the lookup of every other cell unchanged,
   * duplicates or not, as long as `size` counts the list.
   */
  lemma SetElementFrame(m: SparseMatrix, r: int, c: int, v: int, r2: int, c2: int)
    requires m.size == |m.entries|
    requires r2 != r || c2 != c
    ensures Get(SetElement(m, r, c, v).entries, r2, c2) == Get(m.entries, r2, c2)
  {
    var es := m.entries;
    match Scan(es, r, c)
    case Some(i) =>
      if v == 0 {
        GetRemoveOther(es, i, r2, c2);
      } else {
        GetReplaceOther(es, i, es[i].(data := v), r2, c2);
      }
    case None =>
      if v != 0 {
        GetAppend(es, Entry(r, c, v), r2, c2);
      }
  }

  /** A list without (r, c) is left as it is by the reference update. */
  lemma {:induction false} RewriteAbsent(es: seq<Entry>, r: int, c: int, v: int)
    requires !Present(es, r, c)
    ensures Rewrite(es, r, c, v) == es
  {
    if |es| > 0 {
      assert !HasKey(es[0], r, c);
      assert forall j :: 0 <= j < |es| - 1 ==> es[1..][j] == es[j + 1];
      RewriteAbsent(es[1..], r, c, v);
    }
  }

  /** On a list with unique keys, the reference update only touches the entry at (r, c). */
  lemma {:induction false} RewriteAt(es: seq<Entry>, i: int, r: int, c: int, v: int)
    requires UniqueKeys(es)
    requires 0 <= i < |es| && HasKey(es[i], r, c)
    ensures Rewrite(es, r, c, v) == es[..i] + (if v == 0 then [] else [Entry(r, c, v)]) + es[i + 1..]
  {
    var tail := es[1..];
    var here := if v == 0 then [] else [Entry(r, c, v)];
    if i == 0 {
      RewriteHead(es, r, c, v);
      assert es[..0] + here + es[1..] == here + tail;
    } else {
      TailUnique(es);
      assert !HasKey(es[0], r, c) by {
        assert !HasKey(es[i], es[0].row, es[0].col);
      }
      assert tail[i - 1] == es[i];
      RewriteAt(tail, i - 1, r, c, v);
      calc {
        Rewrite(es, r, c, v);
        [es[0]] + Rewrite(tail, r, c, v);
        [es[0]] + (tail[..i - 1] + here + tail[i..]);
        { assert es[..i] == [es[0]] + tail[..i - 1];
          assert es[i + 1..] == tail[i..]; }
        es[..i] + here + es[i + 1..];
      }
    }
  }

  /** When the head sits at (r, c) and keys are unique, the update only replaces or drops the head. */
  lemma RewriteHead(es: seq<Entry>, r: int, c: int, v: int)
    requires UniqueKeys(es)
    requires |es| > 0 && HasKey(es[0], r, c)
    ensures Rewrite(es, r, c, v) == (if v == 0 then [] else [Entry(r, c, v)]) + es[1..]
  {
    var tail := es[1..];
    assert !Present(tail, r, c) by {
      forall j | 0 <= j < |tail|
        ensures !HasKey(tail[j], r, c)
      {
        assert tail[j] == es[j + 1];
        assert !HasKey(es[j + 1], es[0].row, es[0].col);
      }
    }
    RewriteAbsent(tail, r, c, v);
  }

  /** Dropping the head keeps keys unique. */
  lemma TailUnique(es: seq<Entry>)
    requires |es| > 0 && UniqueKeys(es)
    ensures UniqueKeys(es[1..])
  {
    var tail := es[1..];
    assert forall j :: 0 <= j < |tail| ==> tail[j] == es[j + 1];
  }

  /**
   * On a list with unique keys, `set_element` is the reference update, plus
   * an append at the tail when the cell was absent and v is nonzero: the
   * entry at (r, c) is removed or overwritten in place and every other entry
   * keeps its relative order.
   */
  lemma SetElementIsRewrite(m: SparseMatrix, r: int, c: int, v: int)
    requires UniqueKeys(m.entries) && m.size == |m.entries|
    ensures SetElement(m, r, c, v).entries ==
      Rewrite(m.entries, r, c, v) + (if !Present(m.entries, r, c) && v != 0 then [Entry(r, c, v)] else [])
  {
    var es := m.entries;
    match Scan(es, r, c)
    case Some(i) =>
      RewriteAt(es, i, r, c, v);
      if v == 0 {
        assert SetElement(m, r, c, v) == Unlink(m, i);
        assert es[..i] + [] == es[..i];
      } else {
        assert SetElement(m, r, c, v) == Overwrite(m, i, v);
        assert es[i].(data := v) == Entry(r, c, v);
        SpliceIsUpdate(es, i, Entry(r, c, v));
      }
    case None =>
      RewriteAbsent(es, r, c, v);
  }

  /** Splicing one element in place of the i-th is a sequence update. */
  lemma SpliceIsUpdate<T>(s: seq<T>, i: int, x: T)
    requires 0 <= i < |s|
    ensures s[..i] + [x] + s[i + 1..] == s[i := x]
  {
    var spliced := s[..i] + [x] + s[i + 1..];
    assert forall k :: 0 <= k < |s| ==> spliced[k] == s[i := x][k];
  }

  /** One call of `set_element(row, col, value)`. */
  datatype Assignment = Assignment(row: int, col: int, value: int)

  /** A run of `set_element` calls, in order. */
  function SetAll(m: SparseMatrix, calls: seq<Assignment>): (m': SparseMatrix)
    ensures m'.numRows == m.numRows && m'.numCols == m.numCols
    ensures Valid(m) ==> Valid(m')
    decreases |calls|
  {
    if |calls| == 0 then m
    else SetAll(SetElement(m, calls[0].row, calls[0].col, calls[0].value), calls[1..])
  }
}

=== FILE: results.dfy ===
/** Failure-carrying wrappers used by every module of the sparse-matrix model. */
module Results {

  /** An optional value: a scan that may find nothing, a parse that may fail. */
  datatype Option<+T> = None | Some(value: T)

  /** The outcome of an operation that can raise: a value, or the error it raised. */
  datatype Result<+T, +E> = Success(value: T) | Failure(error: E)
}

=== FILE: scenarios.dfy ===
/**
 * Concrete runs: two small files loaded, added and multiplied, a malformed
 * file, a duplicated cell in a file, and the multiplication dimension check.
 */
module Scenarios {
  import opened Results
  import opened Text
  import opened Entries
  import opened Matrix
  import opened Arithmetic
  import opened Loader

  // The lemmas below take a file or a matrix as a parameter pinned by a
  // `requires` equal to one of these constants: stated on the literal text
  // directly, the verifier unfolds every string operation on it at once.
  const FileA: seq<string> := ["rows=2", "cols=2", "(0,0,1)", "(0,1,2)", "(1,0,3)", "(1,1,4)"]
  const FileB: seq<string> := ["rows=2", "cols=2", "(0,0,5)", "(1,1,6)"]
  const FileIdentity: seq<string> := ["rows=2", "cols=2", "(0,0,1)", "(1,1,1)"]
  const FileDuplicate: seq<string> := ["rows=2", "cols=2", "(0,0,1)", "(0,0,2)"]

  /** The matrices the first three files describe. */
  const MatrixA := SparseMatrix(2, 2, [Entry(0, 0, 1), Entry(0, 1, 2), Entry(1, 0, 3), Entry(1, 1, 4)], 4)
  const MatrixB := SparseMatrix(2, 2, [Entry(0, 0, 5), Entry(1, 1, 6)], 2)
  const Identity := SparseMatrix(2, 2, [Entry(0, 0, 1), Entry(1, 1, 1)], 2)

  /** The two header lines used below read as 2. */
  lemma HeadersRead(rows: string, cols: string)
    requires rows == "rows=2" && cols == "cols=2"
    ensures ParseHeader(rows) == Some(2) && ParseHeader(cols) == Some(2)
  {
    assert Show(2) == "2";
    ParseHeaderShow("rows", 2, "");
    ParseHeaderShow("cols", 2, "");
    assert "rows" + "=" + Show(2) + "" == rows;
    assert "cols" + "=" + Show(2) + "" == cols;
  }

  /** A compact triple line "(r,c,v)" of single digits reads as that triple. */
  lemma TripleRead(line: string, r: int, c: int, v: int)
    requires 0 <= r < 10 && 0 <= c < 10 && 0 <= v < 10
    requires line == ['(', DigitChar(r), ',', DigitChar(c), ',', DigitChar(v), ')']
    ensures ClassifyLine(line) == Triple(r, c, v)
  {
    ShowDigit(r);
    ShowDigit(c);
    ShowDigit(v);
    var x, y, z := [DigitChar(r)], [DigitChar(c)], [DigitChar(v)];
    assert TripleText(r, c, v, "") == "(" + x + "," + "" + y + "," + "" + z + ")";
    assert "(" + x + "," + "" + y + "," + "" + z + ")" == line;
    ClassifyTripleText("", r, c, v, "", "");
    assert "" + TripleText(r, c, v, "") + "" == TripleText(r, c, v, "");
  }

  lemma ShowDigit(d: int)
    requires 0 <= d < 10
    ensures Show(d) == [DigitChar(d)]
  {
  }

  /** What the loader needs to know of a six-line file with a 2 x 2 header and four triples. */
  predicate ReadsAs4(lines: seq<string>, k0: Line, k1: Line, k2: Line, k3: Line) {
    && |lines| == 6
    && ParseHeader(lines[0]) == Some(2) && ParseHeader(lines[1]) == Some(2)
    && ClassifyLine(lines[2]) == k0 && ClassifyLine(lines[3]) == k1
    && ClassifyLine(lines[4]) == k2 && ClassifyLine(lines[5]) == k3
  }

  lemma LinesOfA(lines: seq<string>)
    requires lines == FileA
    ensures ReadsAs4(lines, Triple(0, 0, 1), Triple(0, 1, 2), Triple(1, 0, 3), Triple(1, 1, 4))
  {
    HeadersRead(lines[0], lines[1]);
    TripleRead(lines[2], 0, 0, 1);
    TripleRead(lines[3], 0, 1, 2);
    TripleRead(lines[4], 1, 0, 3);
    TripleRead(lines[5], 1, 1, 4);
  }

  lemma Load4(lines: seq<string>, k0: Line, k1: Line, k2: Line, k3: Line)
    requires ReadsAs4(lines, k0, k1, k2, k3)
    ensures Load(lines) == LoadBody(New(2, 2), [k0, k1, k2, k3])
  {
    var body := lines[2..];
    assert body[0] == lines[2] && body[1] == lines[3] && body[2] == lines[4] && body[3] == lines[5];
    Classify4(body, k0, k1, k2, k3);
  }

  lemma Classify4(body: seq<string>, k0: Line, k1: Line, k2: Line, k3: Line)
    requires |body| == 4
    requires ClassifyLine(body[0]) == k0 && ClassifyLine(body[1]) == k1
    requires ClassifyLine(body[2]) == k2 && ClassifyLine(body[3]) == k3
    ensures Classify(body) == [k0, k1, k2, k3]
  {
    var ks := Classify(body);
    assert ks[0] == k0 && ks[1] == k1;
    assert ks[2] == k2 && ks[3] == k3;
    Four(ks, k0, k1, k2, k3);
  }

  /** A four-element sequence is the display of its elements. */
  lemma Four<T>(s: seq<T>, a: T, b: T, c: T, d: T)
    requires |s| == 4 && s[0] == a && s[1] == b && s[2] == c && s[3] == d
    ensures s == [a, b, c, d]
  {
  }

  /** Triples of two classified lines. */
  lemma Triples2(k0: Line, k1: Line)
    ensures Triples([k0, k1]) == Contribution(k0) + Contribution(k1)
  {
    var ks := [k0, k1];
    assert ks[1..] == [k1] && ks[1..][1..] == [];
    assert Triples([k1]) == Contribution(k1) + [];
  }

  /** Triples of four classified lines, two at a time. */
  lemma Triples4(k0: Line, k1: Line, k2: Line, k3: Line)
    ensures Triples([k0, k1, k2, k3]) == Contribution(k0) + Contribution(k1) + Contribution(k2) + Contribution(k3)
  {
    assert [k0, k1, k2, k3] == [k0, k1] + [k2, k3];
    TriplesAppend([k0, k1], [k2, k3]);
    Triples2(k0, k1);
    Triples2(k2, k3);
  }

  lemma LoadBodyA()
    ensures LoadBody(New(2, 2), [Triple(0, 0, 1), Triple(0, 1, 2), Triple(1, 0, 3), Triple(1, 1, 4)])
      == Success(SparseMatrix(2, 2, [Entry(0, 0, 1), Entry(0, 1, 2), Entry(1, 0, 3), Entry(1, 1, 4)], 4))
  {
    var ks := [Triple(0, 0, 1), Triple(0, 1, 2), Triple(1, 0, 3), Triple(1, 1, 4)];
    Triples4(ks[0], ks[1], ks[2], ks[3]);
    assert forall i :: 0 <= i < |ks| ==> !ks[i].Malformed?;
    var res := LoadBody(New(2, 2), ks);
    assert res.Success?;
    assert res.value.entries == [Entry(0, 0, 1), Entry(0, 1, 2), Entry(1, 0, 3), Entry(1, 1, 4)];
  }

  /** `FileA` loads as `MatrixA`, entries in file order. */
  lemma LoadA(lines: seq<string>)
    requires lines == FileA
    ensures Load(lines) == Success(MatrixA)
  {
    LinesOfA(lines);
    Load4(lines, Triple(0, 0, 1), Triple(0, 1, 2), Triple(1, 0, 3), Triple(1, 1, 4));
    LoadBodyA();
  }

  /** What the loader needs to know of a four-line file with a 2 x 2 header and two triples. */
  predicate ReadsAs2(lines: seq<string>, k0: Line, k1: Line) {
    && |lines| == 4
    && ParseHeader(lines[0]) == Some(2) && ParseHeader(lines[1]) == Some(2)
    && ClassifyLine(lines[2]) == k0 && ClassifyLine(lines[3]) == k1
  }

  lemma Load2(lines: seq<string>, k0: Line, k1: Line)
    requires ReadsAs2(lines, k0, k1)
    ensures Load(lines) == LoadBody(New(2, 2), [k0, k1])
  {
    var body := lines[2..];
    assert body[0] == lines[2] && body[1] == lines[3];
    Classify2(body, k0, k1);
  }

  lemma Classify2(body: seq<string>, k0: Line, k1: Line)
    requires |body| == 2
    requires ClassifyLine(body[0]) == k0 && ClassifyLine(body[1]) == k1
    ensures Classify(body) == [k0, k1]
  {
    var ks := Classify(body);
    assert ks[0] == k0 && ks[1] == k1;
  }

  /** Two nonzero triples load as two entries, in order. */
  lemma LoadBody2(r0: int, c0: int, v0: int, r1: int, c1: int, v1: int)
    requires v0 != 0 && v1 != 0
    ensures LoadBody(New(2, 2), [Triple(r0, c0, v0), Triple(r1, c1, v1)])
      == Success(SparseMatrix(2, 2, [Entry(r0, c0, v0), Entry(r1, c1, v1)], 2))
  {
    var ks := [Triple(r0, c0, v0), Triple(r1, c1, v1)];
    Triples2(ks[0], ks[1]);
    assert Triples(ks) == [Entry(r0, c0, v0), Entry(r1, c1, v1)];
    assert forall i :: 0 <= i < |ks| ==> !ks[i].Malformed?;
    var res := LoadBody(New(2, 2), ks);
    assert res.Success?;
    assert res.value.entries == [Entry(r0, c0, v0), Entry(r1, c1, v1)];
  }

  /** `FileB` loads as `MatrixB`. */
  lemma LoadB(lines: seq<string>)
    requires lines == FileB
    ensures Load(lines) == Success(MatrixB)
  {
    HeadersRead(lines[0], lines[1]);
    TripleRead(lines[2], 0, 0, 5);
    TripleRead(lines[3], 1, 1, 6);
    Load2(lines, Triple(0, 0, 5), Triple(1, 1, 6));
    LoadBody2(0, 0, 5, 1, 1, 6);
  }

  /** `FileIdentity` loads as `Identity`. */
  lemma LoadIdentity(lines: seq<string>)
    requires lines == FileIdentity
    ensures Load(lines) == Success(Identity)
  {
    HeadersRead(lines[0], lines[1]);
    TripleRead(lines[2], 0, 0, 1);
    TripleRead(lines[3], 1, 1, 1);
    Load2(lines, Triple(0, 0, 1), Triple(1, 1, 1));
    LoadBody2(0, 0, 1, 1, 1, 1);
  }

  /** Cell (r, c) of the dense 2 x 2 matrix [[x00, x01], [x10, x11]]; zero outside it. */
  function Cell(x00: int, x01: int, x10: int, x11: int, r: int, c: int): int {
    if r == 0 && c == 0 then x00
    else if r == 0 && c == 1 then x01
    else if r == 1 && c == 0 then x10
    else if r == 1 && c == 1 then x11
    else 0
  }

  lemma GetA(es: seq<Entry>, r: int, c: int)
    requires es == MatrixA.entries
    ensures UniqueKeys(es) && NoZeros(es)
    ensures Get(es, r, c) == Cell(1, 2, 3, 4, r, c)
  {
    assert UniqueKeys(es);
    if r == 0 && c == 0 { GetUnique(es, 0, r, c); }
    else if r == 0 && c == 1 { GetUnique(es, 1, r, c); }
    else if r == 1 && c == 0 { GetUnique(es, 2, r, c); }
    else if r == 1 && c == 1 { GetUnique(es, 3, r, c); }
    else { assert !Present(es, r, c); }
  }

  /** Lookup in a 2 x 2 diagonal list [(0,0,x), (1,1,y)]. */
  lemma GetDiagonal(es: seq<Entry>, x: int, y: int, r: int, c: int)
    requires es == [Entry(0, 0, x), Entry(1, 1, y)]
    ensures UniqueKeys(es)
    ensures Get(es, r, c) == Cell(x, 0, 0, y, r, c)
  {
    assert UniqueKeys(es);
    if r == 0 && c == 0 { GetUnique(es, 0, r, c); }
    else if r == 1 && c == 1 { GetUnique(es, 1, r, c); }
    else { assert !Present(es, r, c); }
  }

  /** Cell by cell, `MatrixA` + `MatrixB` is [[6, 2], [3, 10]]. */
  lemma AddCellsExample(a: SparseMatrix, b: SparseMatrix, r: int, c: int)
    requires a == MatrixA && b == MatrixB
    ensures Add(a, b).Success?
    ensures Get(Add(a, b).value.entries, r, c) == Cell(6, 2, 3, 10, r, c)
  {
    GetA(a.entries, r, c);
    GetDiagonal(b.entries, 5, 6, r, c);
    SumCell(a, b, r, c, Cell(1, 2, 3, 4, r, c), Cell(5, 0, 0, 6, r, c));
  }

  /** One cell of a sum of operands with unique keys, from the operands' lookups. */
  lemma SumCell(a: SparseMatrix, b: SparseMatrix, r: int, c: int, x: int, y: int)
    requires a.numRows == b.numRows && a.numCols == b.numCols
    requires UniqueKeys(a.entries) && UniqueKeys(b.entries)
    requires Get(a.entries, r, c) == x && Get(b.entries, r, c) == y
    ensures Add(a, b).Success? && Get(Add(a, b).value.entries, r, c) == x + y
  {
    AddGetUnique(a, b, r, c);
  }

  /** Under the stored-iff-lookup law, the cells [[6, 2], [3, 10]] are exactly four entries. */
  lemma SumEntries(es: seq<Entry>, e: Entry)
    requires e in es <==> e.data != 0 && Cell(6, 2, 3, 10, e.row, e.col) == e.data
    ensures e in es <==> e in [Entry(0, 0, 6), Entry(0, 1, 2), Entry(1, 0, 3), Entry(1, 1, 10)]
  {
  }

  /** `MatrixA` + `MatrixB` holds exactly the entries (0,0,6), (0,1,2), (1,0,3), (1,1,10). */
  lemma AddExample(a: SparseMatrix, b: SparseMatrix, e: Entry)
    requires a == MatrixA && b == MatrixB
    ensures Add(a, b).Success?
    ensures e in Add(a, b).value.entries <==> e in [Entry(0, 0, 6), Entry(0, 1, 2), Entry(1, 0, 3), Entry(1, 1, 10)]
  {
    var sum := Add(a, b).value;
    AddCellsExample(a, b, e.row, e.col);
    StoredIffGet(sum.entries, e);
    SumEntries(sum.entries, e);
  }

  /** The textbook product of two 2 x 2 lists at (i, j). */
  lemma Dot2(xs: seq<Entry>, bs: seq<Entry>, i: int, j: int)
    ensures Dot(xs, bs, i, j, 2) == Get(xs, i, 0) * Get(bs, 0, j) + Get(xs, i, 1) * Get(bs, 1, j)
  {
  }

  /** The textbook product of `MatrixA` and `Identity` at (i, j) is the cell of `MatrixA`. */
  lemma DotIdentity(xs: seq<Entry>, ids: seq<Entry>, i: int, j: int)
    requires xs == MatrixA.entries && ids == Identity.entries
    ensures Dot(xs, ids, i, j, 2) == Get(xs, i, j)
  {
    GetA(xs, i, 0);
    GetA(xs, i, 1);
    GetA(xs, i, j);
    GetDiagonal(ids, 1, 1, 0, j);
    GetDiagonal(ids, 1, 1, 1, j);
    Dot2(xs, ids, i, j);
    IdentityCells(i, j);
  }

  lemma IdentityCells(i: int, j: int)
    ensures Cell(1, 2, 3, 4, i, 0) * Cell(1, 0, 0, 1, 0, j) + Cell(1, 2, 3, 4, i, 1) * Cell(1, 0, 0, 1, 1, j)
      == Cell(1, 2, 3, 4, i, j)
  {
    if j == 0 || j == 1 {
      assert Cell(1, 0, 0, 1, 0, j) == 1 - j && Cell(1, 0, 0, 1, 1, j) == j;
    } else {
      assert Cell(1, 0, 0, 1, 0, j) == 0 && Cell(1, 0, 0, 1, 1, j) == 0;
    }
  }

  /** `MatrixA` times `Identity` reads back as `MatrixA`, cell by cell. */
  lemma MultiplyIdentityExample(a: SparseMatrix, id: SparseMatrix, i: int, j: int)
    requires a == MatrixA && id == Identity
    ensures Multiply(a, id).Success?
    ensures Get(Multiply(a, id).value.entries, i, j) == Get(a.entries, i, j)
  {
    GetA(a.entries, 0, 0);
    GetDiagonal(id.entries, 1, 1, 0, 0);
    assert forall k :: 0 <= k < |a.entries| ==> 0 <= a.entries[k].col < a.numCols;
    MultiplyIsProduct(a, id, i, j);
    DotIdentity(a.entries, id.entries, i, j);
  }

  /** A 2 x 3 matrix cannot multiply a 4 x 2 one. */
  lemma MultiplyMismatchExample()
    ensures Multiply(New(2, 3), New(4, 2)) == Failure(DimensionMismatch("Invalid dimensions for multiplication"))
  {
  }

  /** A body line that is neither blank nor a triple rejects the whole file. */
  lemma GarbageLine(lines: seq<string>)
    requires lines == ["rows=2", "cols=2", "(0,0,1)", "garbage"]
    ensures Load(lines).Failure?
    ensures Message(Load(lines).error) == "Invalid format in input file"
  {
    StripPadded("", lines[3], "");
    assert "" + lines[3] + "" == lines[3];
  }

  /**
   * A cell written twice in a file is stored twice, in file order: lookup sees the first
   * value, while adding a zero matrix keeps the last one.
   */
  lemma DuplicateKept(lines: seq<string>)
    requires lines == FileDuplicate
    ensures Load(lines) == Success(SparseMatrix(2, 2, [Entry(0, 0, 1), Entry(0, 0, 2)], 2))
    ensures Get(Load(lines).value.entries, 0, 0) == 1
    ensures Get(Add(Load(lines).value, New(2, 2)).value.entries, 0, 0) == 2
  {
    HeadersRead(lines[0], lines[1]);
    TripleRead(lines[2], 0, 0, 1);
    TripleRead(lines[3], 0, 0, 2);
    Load2(lines, Triple(0, 0, 1), Triple(0, 0, 2));
    LoadBody2(0, 0, 1, 0, 0, 2);
    var m := Load(lines).value;
    assert Scan(m.entries, 0, 0) == Some(0);
    AddGet(m, New(2, 2), 0, 0);
    assert m.entries[..1] == [Entry(0, 0, 1)];
    assert LastValue(m.entries, 0, 0) == 2;
  }

  /**
   * `is_empty()` trusts the `size` counter: with a stale count of 0, setting
   * a new cell restarts the list and the cell that was there reads as 0.
   */
  lemma StaleCountRestarts(m: SparseMatrix)
    requires m == SparseMatrix(2, 2, [Entry(0, 0, 1)], 0)
    ensures SetElement(m, 1, 1, 5).entries == [Entry(1, 1, 5)]
    ensures Get(m.entries, 0, 0) == 1 && Get(SetElement(m, 1, 1, 5).entries, 0, 0) == 0
  {
    assert Scan(m.entries, 0, 0) == Some(0);
    assert Scan(m.entries, 1, 1) == None;
  }
}

=== FILE: text.dfy ===
/**
 * The string operations the loader leans on: `str.strip()`, `str.split(sep)`
 * and `int()` on a decimal token, plus decimal rendering (the inverse of the
 * integer parse, as an f-string prints an int).
 */
module Text {
  import opened Results

  /** The characters `str.strip()` removes (the ASCII ones; see the README). */
  predicate IsSpace(ch: char) {
    ch == ' ' || 9 <= ch as int <= 13 || 28 <= ch as int <= 31
  }

  /** Drops leading whitespace. */
  function TrimLeft(s: string): (t: string)
    ensures |t| <= |s|
    ensures |t| > 0 ==> !IsSpace(t[0])
    ensures forall k :: 0 <= k < |s| - |t| ==> IsSpace(s[k])
  {
    if |s| > 0 && IsSpace(s[0]) then TrimLeft(s[1..]) else s
  }

  /** Drops trailing whitespace. */
  function TrimRight(s: string): (t: string)
    ensures |t| <= |s|
    ensures |t| > 0 ==> !IsSpace(t[|t| - 1])
    ensures forall k :: |t| <= k < |s| ==> IsSpace(s[k])
  {
    if |s| > 0 && IsSpace(s[|s| - 1]) then TrimRight(s[..|s| - 1]) else s
  }

  /** `str.strip()`: the string without its leading and trailing whitespace. */
  function Strip(s: string): (t: string)
    ensures |t| > 0 ==> !IsSpace(t[0]) && !IsSpace(t[|t| - 1])
    ensures t == "" <==> forall k :: 0 <= k < |s| ==> IsSpace(s[k])
  {
    TrimLeftIsSuffix(s);
    TrimRightIsPrefix(TrimLeft(s));
    TrimRight(TrimLeft(s))
  }

  lemma {:induction false} TrimLeftIsSuffix(s: string)
    ensures TrimLeft(s) == s[|s| - |TrimLeft(s)|..]
    decreases |s|
  {
    if |s| > 0 && IsSpace(s[0]) {
      TrimLeftIsSuffix(s[1..]);
    }
  }

  lemma {:induction false} TrimRightIsPrefix(s: string)
    ensures TrimRight(s) == s[..|TrimRight(s)|]
    decreases |s|
  {
    if |s| > 0 && IsSpace(s[|s| - 1]) {
      TrimRightIsPrefix(s[..|s| - 1]);
    }
  }

  lemma {:induction false} TrimLeftPadded(pre: string, s: string)
    requires forall k :: 0 <= k < |pre| ==> IsSpace(pre[k])
    requires |s| > 0 && !IsSpace(s[0])
    ensures TrimLeft(pre + s) == s
    decreases |pre|
  {
    if |pre| > 0 {
      assert (pre + s)[1..] == pre[1..] + s;
      TrimLeftPadded(pre[1..], s);
    }
  }

  lemma {:induction false} TrimRightPadded(s: string, post: string)
    requires forall k :: 0 <= k < |post| ==> IsSpace(post[k])
    requires |s| > 0 && !IsSpace(s[|s| - 1])
    ensures TrimRight(s + post) == s
    decreases |post|
  {
    if |post| > 0 {
      var w := s + post;
      assert w[..|w| - 1] == s + post[..|post| - 1];
      TrimRightPadded(s, post[..|post| - 1]);
    } else {
      assert s + post == s;
    }
  }

  /** Strip removes exactly the surrounding whitespace: a string that starts and ends with a non-space comes back whole. */
  lemma StripPadded(pre: string, s: string, post: string)
    requires forall k :: 0 <= k < |pre| ==> IsSpace(pre[k])
    requires forall k :: 0 <= k < |post| ==> IsSpace(post[k])
    requires |s| > 0 && !IsSpace(s[0]) && !IsSpace(s[|s| - 1])
    ensures Strip(pre + s + post) == s
  {
    assert pre + s + post == pre + (s + post);
    TrimLeftPadded(pre, s + post);
    TrimRightPadded(s, post);
  }

  /** Joins pieces with the separator between consecutive pieces: the inverse of `Split`. */
  function Join(parts: seq<string>, sep: char): string
    requires |parts| > 0
    decreases |parts|
  {
    if |parts| == 1 then parts[0] else parts[0] + [sep] + Join(parts[1..], sep)
  }

  /**
   * `str.split(sep)`: the maximal separator-free pieces between separators,
   * empty pieces included; there is always at least one piece.
   */
  function Split(s: string, sep: char): (parts: seq<string>)
    ensures |parts| > 0
    ensures forall k :: 0 <= k < |parts| ==> sep !in parts[k]
    ensures Join(parts, sep) == s
    decreases |s|
  {
    if |s| == 0 then [""]
    else
      var rest := Split(s[1..], sep);
      if s[0] == sep then
        assert [sep] + Join(rest, sep) == s;
        [""] + rest
      else
        var parts := [[s[0]] + rest[0]] + rest[1..];
        assert forall k :: 1 <= k < |parts| ==> parts[k] == rest[k];
        assert Join(parts, sep) == [s[0]] + Join(rest, sep) by {
          if |rest| > 1 {
            assert parts[1..] == rest[1..];
          }
        }
        parts
  }

  /** Splitting a join of separator-free pieces gives the pieces back. */
  lemma {:induction false} SplitJoin(parts: seq<string>, sep: char)
    requires |parts| > 0
    requires forall k :: 0 <= k < |parts| ==> sep !in parts[k]
    ensures Split(Join(parts, sep), sep) == parts
    decreases |parts|, |parts[0]|
  {
    var head := parts[0];
    if |head| == 0 {
      if |parts| > 1 {
        SplitJoin(parts[1..], sep);
        assert Join(parts, sep) == [sep] + Join(parts[1..], sep);
      }
    } else {
      var shorter := [head[1..]] + parts[1..];
      assert forall k :: 1 <= k < |shorter| ==> shorter[k] == parts[k];
      assert head[1..] + [] == head[1..];
      SplitJoin(shorter, sep);
      assert Join(parts, sep) == [head[0]] + Join(shorter, sep) by {
        if |parts| > 1 {
          assert shorter[1..] == parts[1..];
          assert head == [head[0]] + head[1..];
        }
      }
      assert head == [head[0]] + head[1..];
      assert Join(parts, sep)[0] == head[0];
      assert Join(parts, sep)[1..] == Join(shorter, sep);
    }
  }

  predicate IsDigit(ch: char) {
    '0' <= ch <= '9'
  }

  predicate AllDigits(s: string) {
    forall k :: 0 <= k < |s| ==> IsDigit(s[k])
  }

  /** The character of a decimal digit. */
  function DigitChar(d: nat): (ch: char)
    requires d < 10
    ensures IsDigit(ch) && (ch as int) - ('0' as int) == d
  {
    ('0' as int + d) as char
  }

  /** The number a digit string spells, most significant digit first. */
  function DigitsValue(s: string): nat
    requires AllDigits(s)
    decreases |s|
  {
    if |s| == 0 then 0
    else DigitsValue(s[..|s| - 1]) * 10 + ((s[|s| - 1] as int) - ('0' as int))
  }

  /**
   * `int()` on a token with no surrounding whitespace: an optional sign and
   * at least one decimal digit; anything else is rejected.
   */
  function ParseDecimal(s: string): (o: Option<int>)
    ensures o.Some? ==> |s| > 0 && AllDigits(s[1..])
    ensures o.Some? ==> IsDigit(s[0]) || s[0] == '+' || s[0] == '-'
    ensures o.Some? ==> |s| > 1 || IsDigit(s[0])
    ensures o.Some? && s[0] == '-' ==> o.value <= 0
    ensures o.Some? && s[0] != '-' ==> o.value >= 0
  {
    if |s| > 1 && (s[0] == '+' || s[0] == '-') && AllDigits(s[1..]) then
      var n: int := DigitsValue(s[1..]);
      Some(if s[0] == '-' then -n else n)
    else if |s| > 0 && AllDigits(s) then
      assert AllDigits(s[1..]) by { assert forall k :: 0 <= k < |s| - 1 ==> s[1..][k] == s[k + 1]; }
      Some(DigitsValue(s))
    else None
  }

  /** `int(token)`: whitespace around the token is tolerated, but not an empty or all-whitespace token. */
  function ParseInt(s: string): (o: Option<int>)
    ensures (forall k :: 0 <= k < |s| ==> IsSpace(s[k])) ==> o.None?
  {
    ParseDecimal(Strip(s))
  }

  /** A run of '0' characters spells 0. */
  lemma {:induction false} ZerosValue(zeros: string)
    requires forall k :: 0 <= k < |zeros| ==> zeros[k] == '0'
    ensures AllDigits(zeros) && DigitsValue(zeros) == 0
    decreases |zeros|
  {
    if |zeros| > 0 {
      ZerosValue(zeros[..|zeros| - 1]);
    }
  }

  /** Leading zeros do not change the value of a digit string. */
  lemma {:induction false} LeadingZerosValue(zeros: string, d: string)
    requires forall k :: 0 <= k < |zeros| ==> zeros[k] == '0'
    requires AllDigits(d)
    ensures AllDigits(zeros + d) && DigitsValue(zeros + d) == DigitsValue(d)
    decreases |d|
  {
    ZerosValue(zeros);
    var s := zeros + d;
    assert forall k :: 0 <= k < |s| ==> s[k] == if k < |zeros| then zeros[k] else d[k - |zeros|];
    if |d| == 0 {
      assert s == zeros;
    } else {
      var front := d[..|d| - 1];
      assert s[..|s| - 1] == zeros + front;
      assert s[|s| - 1] == d[|d| - 1];
      LeadingZerosValue(zeros, front);
    }
  }

  /**
   * Every token `int()` accepts is read at its value: an optional sign, any
   * number of leading zeros, then the digits of n give n, negated after '-'.
   */
  lemma ParsePadded(sign: string, zeros: string, n: nat)
    requires sign == "" || sign == "+" || sign == "-"
    requires forall k :: 0 <= k < |zeros| ==> zeros[k] == '0'
    ensures ParseDecimal(sign + zeros + ShowNat(n)) == Some(if sign == "-" then -(n as int) else n as int)
  {
    var digits := zeros + ShowNat(n);
    LeadingZerosValue(zeros, ShowNat(n));
    assert sign + zeros + ShowNat(n) == sign + digits;
    ParseSigned(sign, digits);
  }

  /** An optional sign before a nonempty digit string reads as the digits' value, negated after '-'. */
  lemma ParseSigned(sign: string, digits: string)
    requires sign == "" || sign == "+" || sign == "-"
    requires |digits| > 0 && AllDigits(digits)
    ensures ParseDecimal(sign + digits) == Some(if sign == "-" then -(DigitsValue(digits) as int) else DigitsValue(digits) as int)
  {
    var s := sign + digits;
    if sign == "" {
      assert s == digits;
      assert IsDigit(s[0]);
    } else {
      assert s[0] == sign[0] && s[1..] == digits;
    }
  }

  /** The same through `int()`, with any whitespace around the token. */
  lemma ParseIntPadded(pre: string, sign: string, zeros: string, n: nat, post: string)
    requires forall k :: 0 <= k < |pre| ==> IsSpace(pre[k])
    requires forall k :: 0 <= k < |post| ==> IsSpace(post[k])
    requires sign == "" || sign == "+" || sign == "-"
    requires forall k :: 0 <= k < |zeros| ==> zeros[k] == '0'
    ensures ParseInt(pre + (sign + zeros + ShowNat(n)) + post) == Some(if sign == "-" then -(n as int) else n as int)
  {
    var token := sign + zeros + ShowNat(n);
    assert token[|token| - 1] == ShowNat(n)[|ShowNat(n)| - 1];
    assert !IsSpace(token[0]) by {
      if sign == "" && |zeros| == 0 {
        assert token[0] == ShowNat(n)[0];
      }
    }
    StripPadded(pre, token, post);
    ParsePadded(sign, zeros, n);
  }

  /** Decimal digits of a natural number, most significant first, no leading zeros. */
  function ShowNat(n: nat): (s: string)
    ensures |s| > 0 && AllDigits(s) && DigitsValue(s) == n
    ensures |s| > 1 ==> s[0] != '0'
    decreases n
  {
    if n < 10 then [DigitChar(n)]
    else
      var front := ShowNat(n / 10);
      var s := front + [DigitChar(n % 10)];
      assert s[..|s| - 1] == front;
      s
  }

  /** Decimal rendering of an integer, as Python prints it: a leading '-' when negative. */
  function Show(n: int): (s: string)
    ensures |s| > 0 && !IsSpace(s[0]) && !IsSpace(s[|s| - 1])
    ensures forall k :: 0 <= k < |s| ==> s[k] != ',' && s[k] != '='
  {
    if n < 0 then "-" + ShowNat(-n) else ShowNat(n)
  }

  /** Parsing the rendering of any integer gives the integer back. */
  lemma ParseShow(n: int)
    ensures ParseDecimal(Show(n)) == Some(n)
  {
    var s := Show(n);
    if n < 0 {
      assert s[1..] == ShowNat(-n);
    } else {
      assert s == ShowNat(n);
      if |s| > 1 {
        assert IsDigit(s[0]);
      }
    }
  }

  /** The same holds through `int()`, with any whitespace around the rendering. */
  lemma ParseIntShow(pre: string, n: int, post: string)
    requires forall k :: 0 <= k < |pre| ==> IsSpace(pre[k])
    requires forall k :: 0 <= k < |post| ==> IsSpace(post[k])
    ensures ParseInt(pre + Show(n) + post) == Some(n)
  {
    StripPadded(pre, Show(n), post);
    ParseShow(n);
  }
}
